=== FILE: README.md ===
# fps-challenge media pipeline core, in Dafny

fps-challenge reads an audio/video stream with libav and measures the frame
rate of its video. This project models the core it is built on:

- **`Media` (packet.dfy)**: the `Packet` value. It holds a byte buffer with a
  logical size, timing fields, a flag word, and a NAL-unit classification.
  `checkData` recomputes the classification on every `Store` and `Add`. It
  looks for the end of an Annex B start code (section B.1 of ITU-T H.264) by
  inspecting only byte 2 and byte 3: a 1 at byte 2 gives length 3, else a 1
  at byte 3 gives length 4, and the zero bytes before are never checked (so
  `FF FF 01 …` counts as a 3-byte start code). It then reads `nal_unit_type`
  (Table 7-1 of ITU-T H.264) and recognises the first
  fragment of an IDR picture sent as an FU-A/FU-B unit (section 5.8 of RFC
  6184). Also modelled: `CreateFromAVPacket`, `Clone`, `Clear`, the setters,
  and the name functions.
- **`CircularBuffers` (circular_buffer.dfy)**: `common::CircularBuffer`, a
  bounded FIFO. Its producer waits instead of dropping an item. `pop_back`
  notifies one waiter only when the queue was full. `mean` divides by the
  capacity.
- **`Subscribers` (subscriber.dfy)**: `PacketSourceSubscriber`. It has a
  queue of packet pointers, an identity memoized on first use as the object
  name plus a random suffix, and a termination flag.
- **`PacketSource` (packet_source.dfy)**: `AVPacketSource`'s subscriber
  registry (`Subscribe`, `Unsubscribe`, `removeTerminatedPacketSource`,
  `Stop`) and its fan-out `publishToAll`. A single subscriber receives the
  packet itself. Two or more subscribers each receive a `Clone`, in registry
  order. With none, the packet is dropped. A `PacketSourceSubscriberPtr` is a
  handle: an address into the hub's heap of subscriber objects. The registry
  is an ordered list of handles, and the application holds the same handles,
  so both see one object, including the identity `ObjectId()` memoizes in it
  during `Subscribe`'s and `Unsubscribe`'s `find_if`.
- **`FrameCounters` (frame_counter.dfy)**: `FrameCounter::frameCallback`'s
  window arithmetic. It counts frames and accumulates frame-time deltas. When
  the accumulated time exceeds the target, it reports the count divided by
  the target's whole seconds and restarts the window.
- **`Common` (common.dfy)**: shared vocabulary. `Option` stands for null
  pointers. The `Step` outcome is `Done(state)`, or `Blocked` when a push
  would wait on the full-queue condition variable; that wait never returns in
  a sequential model. C++ truncating division is `CDiv`.

Everything is a value: a moved or copied `Packet::Ptr` is an `Option<Packet>`
passed by value, so a clone shares nothing with its original.

## Model

| member | source | states |
|---|---|---|
| Common.CDiv | src/frame-counter.cpp:75 | C++ integer division truncates toward zero: it equals Euclidean division for non-negative operands, the quotient's magnitude is the floor of the magnitudes' quotient, and its sign is the product of the operands' signs |
| CircularBuffers.New | src/common/circular-buffer.hpp:13-16 | a new queue is empty and valid; a requested capacity of 0 becomes 1, any other is kept |
| CircularBuffers.Push | src/common/circular-buffer.hpp:22-30 | push waits exactly when the queue holds capacity items or more; otherwise it appends at the tail, keeps the capacity and keeps the queue valid |
| CircularBuffers.PopBack | src/common/circular-buffer.hpp:32-45 | popping an empty queue returns the default value, changes nothing and notifies nobody; otherwise it returns the head and leaves the rest; a waiter is notified exactly when the queue was full |
| CircularBuffers.Clear | src/common/circular-buffer.hpp:47-52 | clearing leaves no item and keeps the capacity |
| CircularBuffers.Count | src/common/circular-buffer.hpp:59-62 | the count fits a uint32 and, for a valid queue, is the number of queued items |
| CircularBuffers.IsEmpty | src/common/circular-buffer.hpp:54-57 | for a valid queue, empty exactly when the count is zero |
| CircularBuffers.Mean | src/common/circular-buffer.hpp:64-71 | the result fits an int32; for a sum in [0, 2^31) it is the sum divided by the capacity (not by the count), rounded down; for a negative int32 sum it is the sum itself at capacity 1 and otherwise the non-negative quotient of the sum plus 2^32 |
| CircularBuffers.QuotientOfWord | src/common/circular-buffer.hpp:64-71 | the unsigned quotient of `mean`: a non-negative int32 sum is divided as is, a negative one gains 2^32 first, which fits an int32 again exactly when the capacity is at least 2 |
| CircularBuffers.MeanOfNegativeSumWraps | src/common/circular-buffer.hpp:64-71 | a capacity-2 queue holding -1 has mean 2147483647: the negative sum is converted to unsigned before dividing |
| CircularBuffers.SignedMean | src/common/circular-buffer.hpp:64-71 | the intended mean has the sign of the sum and lies within one unit of the exact quotient by the capacity |
| CircularBuffers.PushAllFits | src/common/circular-buffer.hpp:22-30 | while items fit in the free room, consecutive pushes never wait and append the items in order |
| CircularBuffers.PushAllOverflowBlocks | src/common/circular-buffer.hpp:22-30 | pushing more items than the free room waits instead of dropping or overwriting an item |
| CircularBuffers.PopAllReturnsItems | src/common/circular-buffer.hpp:32-45 | popping a queue dry returns exactly its items, oldest first |
| CircularBuffers.FifoOrder | src/common/circular-buffer.hpp:22-45 | whatever fits into a fresh queue comes out in the order it went in |
| CircularBuffers.CapacityTwoScenario | src/common/circular-buffer.hpp:22-45 | with capacity 2, a third push waits until a pop (which notifies) frees a slot, and FIFO order holds throughout |
| Media.FlagBit | src/media/packet.hpp:10-15 | each flag is a single bit among the low four |
| Media.FlagBitsDisjoint | src/media/packet.hpp:10-15 | two flags share a bit exactly when they are the same flag |
| Media.WordRoundTrip | src/media/packet.hpp:100-102 | the flag record and its word carry the same information, and testing a flag's bit in the word is reading that flag |
| Media.Only | src/media/packet.cpp:45 | a fresh packet's flag word is exactly the requested flag's bit |
| Media.AddFlag | src/media/packet.hpp:92-94 | adding a flag sets it, keeps every other flag, and changes no other field |
| Media.AddFlagIsBitwiseOr | src/media/packet.hpp:92-94 | adding a flag is the bitwise OR of its bit into the word |
| Media.RemoveFlag | src/media/packet.hpp:96-98 | as written, removing any flag zeroes the whole flag word and changes no other field |
| Media.RemoveFlagDropsOtherFlags | src/media/packet.hpp:96-98 | removing the key-frame mark from a video key frame also loses its video flag |
| Media.ClearFlag | src/media/packet.hpp:96-98 | the intended removal clears exactly the given flag and keeps every other one |
| Media.MaskClearsOneBit | src/media/packet.hpp:96-98 | masking the word with the complement of a flag's bit clears that flag in the record and nothing else |
| Media.HasFlagIsBitTest | src/media/packet.hpp:100-102 | a packet has a flag exactly when the flag's bit is set in its flag word |
| Media.IsKeyIsBitTest | src/media/packet.hpp:108-110 | a packet is a key frame exactly when bit 2 (the value of HasKeyFrame) is set in its flag word |
| Media.IsValidOnTheWord | src/media/packet.hpp:112-115 | a packet is valid exactly when it holds at most one payload byte, bit 3 (the value of IsCorrupted) is clear in its flag word, and its pts is non-negative |
| Media.RemoveAllFlags | src/media/packet.hpp:104-106 | no flag remains set and no other field changes |
| Media.SetPts | src/media/packet.hpp:60-65 | setting pts also sets dts exactly for an audio packet; nothing else changes |
| Media.SetDts | src/media/packet.hpp:70-72 | only dts changes |
| Media.SetGroupId | src/media/packet.hpp:81-83 | only the group id changes |
| Media.SetStreamId | src/media/packet.hpp:88-90 | only the stream id changes |
| Media.SetDuration | src/media/packet.hpp:129-131 | only the duration changes |
| Media.SetMetaData | src/media/packet.hpp:141-143 | only the metadata changes |
| Media.WithCapacity | src/media/packet.cpp:38-50 | a new packet has an empty payload over a zero-filled buffer of the requested capacity, only the requested flag, an Unknown classification, zero timing and ids, and empty metadata |
| Media.WithDefaultCapacity | src/media/packet.cpp:34-36 | a packet built without a capacity has the requested id, the default capacity of 240 KiB over a zero-filled buffer, an empty payload, only the requested flag, an Unknown classification, zero timing and ids, and no metadata |
| Media.MakeVideoPacket | src/media/packet.cpp:6-8 | a new video packet carries exactly the video flag, the requested id and capacity, an empty payload over a zero-filled buffer, an Unknown classification with no start code, zero timing and ids, and empty metadata |
| Media.MakeAudioPacket | src/media/packet.cpp:10-12 | a new audio packet carries exactly the audio flag, the requested id and capacity, an empty payload over a zero-filled buffer, an Unknown classification with no start code, zero timing and ids, and empty metadata |
| Media.StartCodeLengthOf | src/media/packet.cpp:99-104 | the start-code length is 3 exactly when byte 2 is 1, 4 exactly when byte 2 is not 1 and byte 3 is, and 0 otherwise; no other byte is inspected |
| Media.AnnexBStartCodesRecognised | src/media/packet.cpp:99-104 | the byte patterns 00 00 01 and 00 00 00 01 give lengths 3 and 4 |
| Media.LongBuffersAreReadable | src/media/packet.cpp:99-108 | a buffer of six bytes or more keeps every byte classification reads in bounds |
| Media.NalUnitFromHeader | src/media/packet.cpp:106-131 | type 7 is SPS, type 8 is PPS, type 5 or the first FU-A/FU-B fragment of a type-5 unit is I_Frame, type 1 is P_Frame, and everything else (including 6) is Unknown; SEI and B_Frame never result |
| Media.CheckData | src/media/packet.cpp:87-132 | classification changes only the type, start-code length and flags; it keeps video, keeps audio only without video, clears the corrupt mark, and marks a key frame exactly for an I_Frame; audio short-circuits to Unknown with no start code, and video reads the header after the detected start code |
| Media.CheckDataIdempotent | src/media/packet.cpp:87-132 | classifying an already classified packet changes nothing |
| Media.HasStartCodeAfterCheck | src/media/packet.hpp:117-119 | after classification, a packet has a start code exactly when it took the video path and byte 2 or byte 3 of its buffer is 1 |
| Media.StoredBuffer | src/media/packet.cpp:63-68 | storing grows the buffer to the data's length when shorter and never shrinks it; the data lands at the start, and the bytes after it are kept |
| Media.Store | src/media/packet.cpp:63-70 | after storing, the payload is exactly the data, the packet is classified (reclassifying changes nothing), and only size, buffer, type, start code and flags change |
| Media.AddedBuffer | src/media/packet.cpp:54-59 | appending grows the buffer to size plus length when shorter and never shrinks it; the data lands at the old size, and the bytes before and after it are kept |
| Media.Add | src/media/packet.cpp:54-61 | after appending, the payload is the old payload followed by the data, the size grows by the length, the packet is classified, and nothing else changes |
| Media.StoreThenAdd | src/media/packet.cpp:54-70 | storing a then appending b leaves a followed by b as the payload |
| Media.Clone | src/media/packet.cpp:72-85 | a clone copies flags, start-code length, pts, dts, group and stream ids, size, duration and the whole buffer; its type is Unknown, its id is the original's capacity, its capacity is the default and its metadata is empty |
| Media.CloneReclassifies | src/media/packet.cpp:72-85 | reclassifying a clone of a classified packet restores the type the clone lost and changes nothing else |
| Media.Clear | src/media/packet.cpp:134-143 | clearing empties payload and buffer and resets type, start code, flags, stream id, group id and pts, while dts, duration, id, capacity and metadata are kept |
| Media.ClearedPacketIsNotClassifiable | src/media/packet.cpp:134-143 | a cleared packet takes the video path of classification with an empty buffer, so classifying it would read out of bounds |
| Media.FillFromAvPacket | src/media/packet.cpp:20-31 | the created packet's payload is the source bytes; pts and stream index are copied (and dts for audio); it keeps the requested type flag; off the audio path its start-code length and NAL type are those of its bytes, on it they are none and Unknown; key frame is set exactly when that NAL type is an I_Frame or libav marked a key; corrupt is set exactly when libav marked corruption; group id, duration and metadata stay empty; the buffer is the constructor's zero-filled one with the source bytes copied to its start, so every byte past the payload is 0 (a 2-byte source thus has no start code and type Unknown) |
| Media.MarkFromAvPacket | src/media/packet.cpp:21-30 | after storing, only pts, dts (audio), stream index and flags change; the flags gain the requested flag and libav's key and corrupt marks and lose nothing |
| Media.StoreClassifies | src/media/packet.cpp:63-70 | a stored packet off the audio path carries the start code and header type of its buffer; on it, none and Unknown |
| Media.CreateFromAvPacket | src/media/packet.cpp:14-32 | a null or shorter-than-two-byte source gives a null packet; otherwise the packet's id is the source size plus 100 whatever id was requested, its capacity is the default, the bytes past the payload are zero, and its classification (start code and NAL type of its bytes, off the audio path) and flags are as filled |
| Media.TwoByteSourceIsUnclassified | src/media/packet.cpp:14-31 | a two-byte video source `00 00` is created with no start code, type Unknown and no key frame, because the bytes classification reads past it are the zero-filled buffer |
| Media.CreatedPacketIgnoresNewId | src/media/packet.cpp:19 | a two-byte source requested under id 7 yields id 102 |
| Media.CreateFromAvPacketWithId | src/media/packet.cpp:14-32 | the intended creation carries the requested id and a capacity of the source size plus 100, with the same zero tail, classification and flags |
| Media.CreatedIdsFollowTheCaller | src/media/packet.cpp:19 | with the intended creation, distinct requested ids give distinct packet ids; as written they give the same id |
| Media.CreatedPacketsAreNeverValid | src/media/packet.hpp:112-115 | validity demands at most one payload byte, so no created packet is valid |
| Media.NalUnitName | src/media/packet.cpp:149-158 | a NAL type's text is never "Audio" or "Invalid_Packet" |
| Media.NalUnitNamesDistinct | src/media/packet.cpp:149-158 | distinct NAL types have distinct texts |
| Media.NalUnitTypeString | src/media/packet.cpp:145-159 | the text is "Audio" exactly for an audio packet, otherwise the NAL type's text |
| Media.PacketTypeToString | src/media/packet.cpp:161-165 | the text is "Invalid_Packet" exactly for a null packet |
| Media.ThreeByteStartCodeExamples | src/media/packet.cpp:99-131 | after a 3-byte start code, header 0x67 is SPS and not key, 0x65 is an I_Frame and key, and 0x06 is Unknown |
| Media.FragmentedIdrExamples | src/media/packet.cpp:106-124 | an FU-A indicator 0x7C with header 0x85 is an I_Frame; without the start bit (0x05) it is Unknown |
| Media.ExampleHeader | src/media/packet.cpp:63-70 | storing six or more bytes into a video packet classifies the header read from those bytes |
| Subscribers.New | src/packet-source-subscriber.cpp:6-7 | a new subscriber is live with an empty identity and an empty queue whose capacity is the requested size converted to uint32 (0 becomes 1, negatives wrap) |
| Subscribers.Terminate | src/packet-source-subscriber.hpp:24-25 | terminating makes the subscriber terminated and keeps its queue, name and identity |
| Subscribers.TerminationIsObeyed | src/packet-source-subscriber.hpp:24-25 | a new subscriber is not terminated whatever its name and queue size, a terminated one is, and a subscriber with room ignores a packet exactly when it is terminated |
| Subscribers.TerminateIdempotent | src/packet-source-subscriber.hpp:24 | terminating twice equals terminating once |
| Subscribers.ObjectId | src/packet-source-subscriber.cpp:16-24 | an identity of ten or more characters is returned unchanged; otherwise the name plus the random suffix becomes the stored identity |
| Subscribers.ObjectIdStable | src/packet-source-subscriber.cpp:16-24 | once computed, the identity is returned again whatever suffix the generator produces later |
| Subscribers.NewPacket | src/packet-source-subscriber.cpp:26-30 | a null packet or a terminated subscriber leaves the subscriber unchanged; otherwise the packet is appended, and the call waits exactly when the queue is full |
| Subscribers.ReadPacket | src/packet-source-subscriber.cpp:32-35 | reading returns the oldest packet and removes it, or null for an empty queue |
| Subscribers.EmptyPacketQueue | src/packet-source-subscriber.hpp:32 | every queued packet is discarded, the capacity is kept, and nothing else changes |
| Subscribers.NewPacketThenReadPacket | src/packet-source-subscriber.cpp:26-35 | two packets handed to a live subscriber are read back in order, then null |
| PacketSource.NewHub | src/packet-source.cpp:6 | a new source is neither started nor stopping and has no subscribers |
| PacketSource.Adopt | src/main.cpp:33 | a new subscriber object gets an address no other object has, and nothing else changes |
| PacketSource.Stop | src/packet-source.cpp:48-50 | stopping only sets the stop request |
| PacketSource.Memoize | src/packet-source-subscriber.cpp:16-24 | calling ObjectId on a shared object returns its identity and stores it in that object only, without changing what ObjectId returns for any object |
| PacketSource.FirstMatch | src/packet-source.cpp:110-112 | the search stops at the first entry whose identity equals the subscriber's, and every entry before it has a different identity |
| PacketSource.MemoizeAll | src/packet-source-subscriber.cpp:16-24 | calling ObjectId on each listed object stores an identity in each of them and touches no other object |
| PacketSource.FindByIdentity | src/packet-source.cpp:126-128 | the search returns the first entry with the subscriber's identity; the subscriber and every entry compared up to the match have stored identities, with no entries nothing is computed, and objects past the match are left as they were |
| PacketSource.RemoveTerminated | src/packet-source.cpp:162-171 | the sweep keeps exactly the live entries, in their original order, without duplicates |
| PacketSource.RemoveTerminatedKeepsLive | src/packet-source.cpp:162-171 | a registry of live subscribers is left unchanged by the sweep |
| PacketSource.EraseAt | src/packet-source.cpp:129-131 | erasing at a position removes that one entry, keeps the order of the rest, and leaves no copy of it in a duplicate-free registry |
| PacketSource.IdentsDistinct | src/packet-source.cpp:110-115 | two different registered objects answer ObjectId differently, because Subscribe only appends an identity it did not find |
| PacketSource.Subscribe | src/packet-source.cpp:102-117 | subscribing is ignored while stopping or for null; otherwise terminated entries are swept and the subscriber is appended exactly when no live entry has its identity, behind the existing entries in their order |
| PacketSource.SubscribeToEmpty | src/packet-source.cpp:108-115 | a subscriber pushed onto a registry with no live entry becomes the only entry without any identity being computed |
| PacketSource.SubscribedRegistryIsLive | src/packet-source.cpp:108-115 | after subscribing a live subscriber, every registry entry is live |
| PacketSource.SharedIdentityStored | src/packet-source.cpp:110-115 | when subscribing found another entry with the subscriber's identity, a later subscribe finds it again whatever suffixes it would draw |
| PacketSource.SubscribeIdempotent | src/packet-source.cpp:102-117 | subscribing the same live subscriber object a second time leaves the registry as the first call left it |
| PacketSource.ErasedByIdentity | src/packet-source.cpp:126-131 | erasing the first match leaves exactly the entries whose identity differs from the subscriber's |
| PacketSource.Unsubscribe | src/packet-source.cpp:119-134 | unsubscribing is ignored while stopping or for null; otherwise the subscriber's object is no longer registered, the remaining entries are exactly the live ones with a different identity, and their order is kept |
| PacketSource.UnsubscribeSole | src/packet-source.cpp:119-134 | unsubscribing the only registered subscriber empties the registry |
| PacketSource.SubscribeThenUnsubscribe | src/main.cpp:33-44 | the application's flow: its subscriber is registered, unsubscribing the same object empties the registry, and subscribing it again keeps one entry |
| PacketSource.FanOut | src/packet-source.cpp:148-159 | the loop completes exactly when every live listed subscriber has room; each live listed subscriber then gains the packet and the others are untouched |
| PacketSource.PublishToAll | src/packet-source.cpp:136-160 | publishing is ignored while stopping or not started; otherwise terminated entries are swept, one remaining subscriber gets the packet itself, two or more each get a clone, and with none the packet is dropped; a full queue makes the publish wait |
| PacketSource.TerminateSubscriber | src/packet-source-subscriber.hpp:24 | the application terminating a shared subscriber affects only that subscriber |
| PacketSource.ReadPacket | src/packet-source-subscriber.cpp:32-35 | the application reading from a shared subscriber gets the oldest packet handed to it and removes it, or null with nothing changed; no other object changes |
| PacketSource.EmptyPacketQueue | src/packet-source-subscriber.hpp:32 | emptying a shared subscriber's queue discards its packets and changes nothing else in the hub |
| PacketSource.StopSilences | src/packet-source.cpp:102-138 | after a stop request, publishing, subscribing and unsubscribing change nothing |
| PacketSource.UnlistedUntouched | src/packet-source.cpp:136-160 | a publish hands nothing to a subscriber the sweep does not keep |
| PacketSource.UnsubscribedReceivesNothing | src/packet-source.cpp:119-160 | a subscriber removed by Unsubscribe is not handed the next packet |
| PacketSource.TerminatedIsSwept | src/packet-source.cpp:136-160 | a terminated subscriber is not handed the next packet and that publish removes it from the registry |
| PacketSource.PublishToLive | src/packet-source.cpp:136-160 | publishing to live subscribers with room sweeps nobody and appends each one's copy to its queue |
| PacketSource.PublishAllFanOut | src/packet-source.cpp:136-160 | over a sequence of publishes, every live subscriber with room receives its copy of every packet, in publish order, and the registry is unchanged |
| PacketSource.PublishThenRead | src/packet-source.cpp:141-144 | the packet published to a single live subscriber is the packet its ReadPacket returns |
| FrameCounters.New | src/frame-counter.cpp:7-15 | a new counter is a live subscriber named "FrameCounter" with no identity yet and a 50-packet queue, frame count -1, zero accumulated duration, last frame time 0 and rate 0 |
| FrameCounters.FrameCallback | src/frame-counter.cpp:65-79 | each frame advances the reference time; below the target it counts the frame, adds the elapsed time and keeps the rate; past the target it reports the count divided by the target's whole seconds, both truncated toward zero (so a target of -1000 ms or less gives a non-positive rate), and resets count and duration |
| FrameCounters.RunWithinWindow | src/frame-counter.cpp:66-71 | within a window, the count grows by one per frame, the accumulated duration is the time since the reference frame, and the rate stays |
| FrameCounters.WindowReport | src/frame-counter.cpp:65-79 | the frame that closes a window reports the frames counted since the previous report divided by the target's whole seconds, then restarts the window |
| FrameCounters.FirstReport | src/frame-counter.cpp:7-79 | a fresh counter's first report is the number of frames after the first one, up to the first frame past the target, per whole target second |
| FrameCounters.SteadyStreamReportsItsRate | src/frame-counter.cpp:65-79 | a frame every 40 ms with a two-second target reports 25 |

## Left out

- Threads, the registry mutex, the queue mutex and condition variables: a
  wait is the `Blocked` outcome. A spurious wake-up, which could let
  `push_front` go past the capacity because it waits under `if` and not
  `while`, is not modelled.
- The stop check inside `publishToAll`'s loop: in a sequential model the
  flag cannot change during the loop.
- libav: `AVPacketSource::Start`, `readLoop`, `avCleanUp`, `VideoStream`,
  `AudioStream`, decoding, and `FrameCounter::Setup`, `Start`, `Stop` and
  `readLoop`. `av_rescale_q_rnd` is replaced by the frame time in
  milliseconds, given as a parameter.
- `randomString`: its result is a parameter required to be 10 alphanumeric
  characters. In the hub, each object's suffix is given per call, for the
  case where that object computes its identity during the call.
- Object lifetime: the heap only grows. Releasing the last pointer to a
  subscriber is not modelled.
- `onSubscribed`, `onUnsubscribed` and `Setup`: these are virtual hooks with
  empty or libav-only bodies.
- The subscriber destructor's clearing of the initialized flag: object
  lifetime is not modelled.
- Logging, `main`, and the platform configuration header.
- Integer widths: the packet's uint32 size arithmetic in `Add` and `Store`,
  and the int64/int fields, are unbounded. `frameCallback`'s
  `int(frameTime - m_lastFrameTime)` truncation and the int overflow of
  `m_currentDuration` are not modelled. The conversions that matter are
  written out: the queue size to uint32, `Count`, and `mean`'s unsigned
  division.
- `m_fps` is a double, but its value always comes from integer division, so
  it is modelled as an integer.
- FrameCounters.FrameCallback: a report with a target from -999 to 999 ms
  divides by zero, since `m_targetDuration/1000` truncates to 0. That case
  is excluded by a precondition, not modelled. A target of -1000 ms or less
  is modelled: the rate is the count divided by a negative whole number of
  seconds, truncated toward zero.
- Media.Store, Media.Add, Media.CheckData: they require the bytes
  classification reads to lie inside the buffer. `checkData` reads them
  unchecked, and out-of-bounds reads (for example after `Clear`) are
  undefined behaviour.

## Findings

| source | as written | input that shows it | evidently intended | confidence | as-written member | corrected member |
|---|---|---|---|---|---|---|
| src/common/circular-buffer.hpp:64-71 | `sum/m_capacity` divides an `int` sum by a `uint32_t` capacity, so the usual arithmetic conversions make the sum unsigned first | a capacity-2 queue holding -1 gives 2147483647 | a signed mean with truncating division, 0 here | high (not executed); `mean` is only called from a commented-out line (src/frame-counter.cpp:81), so no running path reaches it | CircularBuffers.MeanOfNegativeSumWraps | CircularBuffers.SignedMean |
| src/media/packet.hpp:96-98 | `m_flags &= (!int32_t(flag))` uses logical not, which is 0 for every flag, so every flag is cleared | removing HasKeyFrame from a video key frame also drops VideoPacket | bitwise `~`, which clears only the given flag | high (not executed); `RemoveFlag` is never called, so no running path reaches it | Media.RemoveFlagDropsOtherFlags | Media.ClearFlag |
| src/media/packet.cpp:19 | `pkt->size + 100` is passed where the three-argument constructor takes the id, so `newId` is ignored and the capacity stays the default | a two-byte source requested under id 7 gets id 102 | the four-argument constructor with `newId` as id and `pkt->size + 100` as capacity | medium (not executed) | Media.CreatedPacketIgnoresNewId | Media.CreateFromAvPacketWithId |

=== FILE: circular_buffer.dfy ===
/** The bounded FIFO `common::CircularBuffer<T>`: a deque with a fixed
    capacity whose producer waits (instead of dropping or overwriting) when the
    queue is full. The mutex disappears in a sequential model; the wait on the
    `m_isFull` condition variable becomes the `Blocked` outcome of `Push`. */
module CircularBuffers {
  import opened Common

  /** `capacity` is `m_capacity`; `items` is `m_queue`, head (oldest) first. */
  datatype Buffer<T> = Buffer(capacity: nat, items: seq<T>)

  /** What every reachable queue satisfies: the constructor never leaves a
      zero capacity, the capacity fits a `uint32_t`, and a push never goes past
      the capacity. */
  predicate Valid<T>(b: Buffer<T>) {
    1 <= b.capacity < UINT32_LIMIT && |b.items| <= b.capacity
  }

  /** The result of `pop_back`: the value returned, the queue afterwards, and
      whether one waiting producer was notified. */
  datatype Popped<T> = Popped(value: T, buffer: Buffer<T>, notified: bool)

  /** The capacity a queue built with `cap` gets. */
  function Max1(cap: nat): nat {
    if cap == 0 then 1 else cap
  }

  /** `CircularBuffer(uint32_t cap)`: a capacity of 0 is coerced to 1. */
  function New<T>(cap: nat): (b: Buffer<T>)
    requires cap < UINT32_LIMIT
    ensures Valid(b) && b.items == []
    ensures cap == 0 ==> b.capacity == 1
    ensures cap != 0 ==> b.capacity == cap
  {
    Buffer(Max1(cap), [])
  }

  /** `push_front`: appends at the tail, or waits while the queue is full. */
  function Push<T>(b: Buffer<T>, x: T): (r: Step<Buffer<T>>)
    ensures r.Blocked? <==> |b.items| >= b.capacity
    ensures r.Done? ==> r.state.capacity == b.capacity && r.state.items == b.items + [x]
    ensures r.Done? ==> |r.state.items| == |b.items| + 1 && r.state.items[|b.items|] == x
    ensures Valid(b) && r.Done? ==> Valid(r.state)
  {
    if |b.items| >= b.capacity then Blocked
    else Done(b.(items := b.items + [x]))
  }

  /** `pop_back`: never waits. On an empty queue it returns the default value
      `T{}` (passed in as `zero`) and changes nothing; otherwise it removes and
      returns the head and notifies a waiter only if the queue was full. */
  function PopBack<T>(b: Buffer<T>, zero: T): (r: Popped<T>)
    ensures |b.items| == 0 ==> r == Popped(zero, b, false)
    ensures |b.items| > 0 ==> r.value == b.items[0] && [r.value] + r.buffer.items == b.items
    ensures r.buffer.capacity == b.capacity
    ensures r.notified <==> |b.items| > 0 && |b.items| >= b.capacity
    ensures Valid(b) ==> Valid(r.buffer)
  {
    if |b.items| < 1 then Popped(zero, b, false)
    else
      var wasFull := |b.items| >= b.capacity;
      Popped(b.items[0], b.(items := b.items[1..]), wasFull)
  }

  /** `clear`: drops every queued item. It notifies nobody, so a producer
      blocked on a full queue stays blocked. */
  function Clear<T>(b: Buffer<T>): (r: Buffer<T>)
    ensures r.items == [] && r.capacity == b.capacity
    ensures Valid(b) ==> Valid(r)
  {
    if |b.items| == 0 then b else b.(items := [])
  }

  /** `Count`: the queue length as a `uint32_t`. */
  function Count<T>(b: Buffer<T>): (n: nat)
    ensures n < UINT32_LIMIT
    ensures Valid(b) ==> n == |b.items|
  {
    |b.items| % UINT32_LIMIT
  }

  /** `isEmpty`. */
  function IsEmpty<T>(b: Buffer<T>): (e: bool)
    ensures Valid(b) ==> (e <==> Count(b) == 0)
  {
    |b.items| == 0
  }

  /** The sum of the queued elements, in unbounded arithmetic. */
  function Sum(xs: seq<int>): int {
    if xs == [] then 0 else Sum(xs[..|xs| - 1]) + xs[|xs| - 1]
  }

  /** `mean` as written: the `int` sum is divided by the `uint32_t` capacity,
      so C++'s usual arithmetic conversions turn the sum into an unsigned
      value first, and the quotient is converted back to `int`. The divisor is
      the capacity, not the number of queued elements. A negative sum thus
      comes back unchanged from a capacity-1 queue but, from any larger
      queue, as a non-negative quotient of the sum plus 2^32. */
  function Mean(b: Buffer<int>): (r: int)
    requires b.capacity >= 1
    ensures -INT32_LIMIT <= r < INT32_LIMIT
    ensures 0 <= Sum(b.items) < INT32_LIMIT ==> r == Sum(b.items) / b.capacity
    ensures 0 <= Sum(b.items) < INT32_LIMIT ==> r * b.capacity <= Sum(b.items) < (r + 1) * b.capacity
    ensures -INT32_LIMIT <= Sum(b.items) < 0 && b.capacity == 1 ==> r == Sum(b.items)
    ensures -INT32_LIMIT <= Sum(b.items) < 0 && b.capacity >= 2 ==>
              r >= 0 && r == (Sum(b.items) + UINT32_LIMIT) / b.capacity
  {
    var q := (Sum(b.items) % UINT32_LIMIT) / b.capacity;
    QuotientOfWord(Sum(b.items), b.capacity);
    if q < INT32_LIMIT then q else q - UINT32_LIMIT
  }

  /** The unsigned quotient in `mean`: `s` converted to `uint32_t`, divided by
      `d`. A non-negative `int32_t` sum is divided as is; a negative one
      becomes `s + 2^32`, which stays at least 2^31 for `d == 1` and drops
      below 2^31 for any larger `d`. */
  lemma QuotientOfWord(s: int, d: nat)
    requires d >= 1
    ensures var q := (s % UINT32_LIMIT) / d;
            && 0 <= q < UINT32_LIMIT
            && (0 <= s < INT32_LIMIT ==> q == s / d && q < INT32_LIMIT && q * d <= s < (q + 1) * d)
            && (-INT32_LIMIT <= s < 0 && d == 1 ==> q == s + UINT32_LIMIT)
            && (-INT32_LIMIT <= s < 0 && d >= 2 ==> q == (s + UINT32_LIMIT) / d && q < INT32_LIMIT)
  {
    var u := s % UINT32_LIMIT;
    WordOfInt32(s);
    DivBounds(u, d);
    if d >= 2 {
      ProductBound(u / d, d, u);
    }
  }

  /** `int32_t` to `uint32_t`: non-negative values are kept, negative ones
      gain 2^32. */
  lemma WordOfInt32(s: int)
    ensures 0 <= s < INT32_LIMIT ==> s % UINT32_LIMIT == s
    ensures -INT32_LIMIT <= s < 0 ==> s % UINT32_LIMIT == s + UINT32_LIMIT
  {
  }

  /** A multiple of at least two units below 2^32 has fewer than 2^31 units. */
  lemma ProductBound(q: nat, d: nat, u: nat)
    requires d >= 2 && q * d <= u < UINT32_LIMIT
    ensures q < INT32_LIMIT
  {
    var e: nat := d - 2;
    assert q * d == q * 2 + q * e;
  }

  /** A negative sum exposes the unsigned conversion: one queued `-1` in a
      queue of capacity 2 has mean 2147483647, not 0. */
  lemma MeanOfNegativeSumWraps()
    ensures Mean(Buffer(2, [-1])) == INT32_LIMIT - 1
  {
    assert Sum([-1]) == -1 by {
      assert [-1][..0] == [];
    }
  }

  /** The mean the code evidently intends: the signed sum divided by the
      capacity with C++'s truncating division. Its sign follows the sum's and
      it lies within one unit of the exact quotient. */
  function SignedMean(b: Buffer<int>): (r: int)
    requires b.capacity >= 1
    ensures Sum(b.items) >= 0 ==> r >= 0 && r * b.capacity <= Sum(b.items) < (r + 1) * b.capacity
    ensures Sum(b.items) < 0 ==> r <= 0 && (r - 1) * b.capacity < Sum(b.items) <= r * b.capacity
  {
    CDiv(Sum(b.items), b.capacity)
  }

  /** Pushes `xs` in order; blocks at the first push that finds the queue full. */
  function PushAll<T>(b: Buffer<T>, xs: seq<T>): Step<Buffer<T>>
    decreases |xs|
  {
    if xs == [] then Done(b)
    else match Push(b, xs[0])
      case Blocked => Blocked
      case Done(b') => PushAll(b', xs[1..])
  }

  /** Pops until the queue is empty and returns the values in pop order. */
  function PopAll<T>(b: Buffer<T>, zero: T): seq<T>
    decreases |b.items|
  {
    if |b.items| == 0 then []
    else
      var p := PopBack(b, zero);
      [p.value] + PopAll(p.buffer, zero)
  }

  /** While the items fit, pushing never waits and appends them in order. */
  lemma {:induction false} PushAllFits<T>(b: Buffer<T>, xs: seq<T>)
    requires |b.items| + |xs| <= b.capacity
    ensures PushAll(b, xs) == Done(b.(items := b.items + xs))
    decreases |xs|
  {
    if xs != [] {
      var b' := b.(items := b.items + [xs[0]]);
      assert Push(b, xs[0]) == Done(b');
      assert PushAll(b, xs) == PushAll(b', xs[1..]);
      PushAllFits(b', xs[1..]);
      assert [xs[0]] + xs[1..] == xs;
      assert b'.items + xs[1..] == b.items + xs;
    } else {
      assert b.items + xs == b.items;
    }
  }

  /** Pushing more items than the free room waits: no item is dropped or
      overwritten to make room. */
  lemma {:induction false} PushAllOverflowBlocks<T>(b: Buffer<T>, xs: seq<T>)
    requires |b.items| <= b.capacity < |b.items| + |xs|
    ensures PushAll(b, xs) == Blocked
    decreases |xs|
  {
    if |b.items| < b.capacity {
      PushAllOverflowBlocks(b.(items := b.items + [xs[0]]), xs[1..]);
    }
  }

  /** Popping a queue dry returns exactly its items, oldest first. */
  lemma {:induction false} PopAllReturnsItems<T>(b: Buffer<T>, zero: T)
    ensures PopAll(b, zero) == b.items
    decreases |b.items|
  {
    if |b.items| != 0 {
      PopAllReturnsItems(PopBack(b, zero).buffer, zero);
    }
  }

  /** FIFO: whatever fits into a fresh queue comes out in the order it went in. */
  lemma FifoOrder<T>(cap: nat, xs: seq<T>, zero: T)
    requires cap < UINT32_LIMIT && |xs| <= Max1(cap)
    ensures PushAll(New<T>(cap), xs).Done?
    ensures PopAll(PushAll(New<T>(cap), xs).state, zero) == xs
  {
    PushAllFits(New<T>(cap), xs);
    PopAllReturnsItems(PushAll(New<T>(cap), xs).state, zero);
  }

  /** A capacity-2 queue: A and B go in without waiting, C waits; popping A
      notifies the waiter, after which C goes in, and B, C come out in order. */
  lemma CapacityTwoScenario<T>(a: T, b: T, c: T, zero: T)
    ensures var q2 := PushAll(New<T>(2), [a, b]);
            && q2.Done?
            && Push(q2.state, c).Blocked?
            && var p := PopBack(q2.state, zero);
            && p.value == a && p.notified
            && Push(p.buffer, c).Done?
            && PopAll(Push(p.buffer, c).state, zero) == [b, c]
  {
    PushAllFits(New<T>(2), [a, b]);
    var q2 := PushAll(New<T>(2), [a, b]).state;
    assert q2.items == [a, b];
    var p := PopBack(q2, zero);
    PopAllReturnsItems(Push(p.buffer, c).state, zero);
  }
}

=== FILE: common.dfy ===
/** Small shared vocabulary: nullable values, the outcome of an operation that
    may have to wait on a full queue, and C++ integer conversions. */
module Common {

  /** A value that may be absent: a null `Packet::Ptr`, a null subscriber
      pointer, a missing `AVPacket`. */
  datatype Option<+T> = None | Some(value: T)

  /** The outcome of an operation that pushes into a bounded queue. `Blocked`
      stands for the calling thread being suspended on the queue's
      condition variable: in a sequential model the call does not return. */
  datatype Step<+S> = Done(state: S) | Blocked

  /** 2^32: one past the largest `uint32_t`. */
  const UINT32_LIMIT: int := 0x1_0000_0000

  /** 2^31: one past the largest `int32_t`. */
  const INT32_LIMIT: int := 0x8000_0000

  /** C++ integer division, which truncates toward zero (Dafny's `/` is
      Euclidean, which differs for negative dividends or divisors). */
  function CDiv(a: int, b: int): (q: int)
    requires b != 0
    ensures 0 <= a && 0 < b ==> q == a / b
    ensures Abs(q) * Abs(b) <= Abs(a) < (Abs(q) + 1) * Abs(b)
    ensures (a < 0) != (b < 0) ==> q <= 0
    ensures (a < 0) == (b < 0) ==> q >= 0
  {
    var m := Abs(a) / Abs(b);
    DivBounds(Abs(a), Abs(b));
    var q := if (a < 0) == (b < 0) then m else -m;
    assert Abs(q) == m;
    q
  }

  lemma DivBounds(x: nat, y: nat)
    requires y > 0
    ensures (x / y) * y <= x < (x / y + 1) * y
  {
    assert (x / y) * y + x % y == x;
    assert (x / y + 1) * y == (x / y) * y + y;
  }

  function Abs(x: int): (r: nat)
    ensures r == x || r == -x
  {
    if x < 0 then -x else x
  }
}

=== FILE: frame_counter.dfy ===
/** `FrameCounter`'s frame-rate window: a subscriber that counts decoded
    frames and, whenever the frame times accumulated since the last report
    exceed the target duration, reports the count per whole second of the
    target. Decoding and the conversion of a frame's presentation time to
    milliseconds are left out: the frame time in milliseconds is a parameter. */
module FrameCounters {
  import opened Common
  import Subscribers

  /** `base` is the `PacketSourceSubscriber` part; `targetDuration` is
      `m_targetDuration`, `fps` is `m_fps` (always a whole number, since it
      is computed with integer division), `frameCount` is `m_frameCounts`,
      `lastFrameTime` is `m_lastFrameTime` and `currentDuration` is
      `m_currentDuration`, all in milliseconds. */
  datatype Counter = Counter(
    base: Subscribers.Subscriber,
    targetDuration: int,
    fps: int,
    frameCount: int,
    lastFrameTime: int,
    currentDuration: int)

  /** The queue size the counter passes to its subscriber base. */
  const QUEUE_SIZE: int := 50

  /** `FrameCounter(int durationMS)`: a live subscriber named "FrameCounter"
      with a 50-packet queue; the count starts at -1 so that the first frame
      is not counted. Its time since 0 is still accumulated, so a stream
      whose first frame lies past the target reports at once. */
  function New(durationMs: int): (c: Counter)
    requires -INT32_LIMIT <= durationMs < INT32_LIMIT
    ensures c.base.name == "FrameCounter" && !Subscribers.IsTerminated(c.base)
    ensures c.base.objectId == "" && !Subscribers.HasIdentity(c.base)
    ensures c.base.queue.capacity == QUEUE_SIZE && c.base.queue.items == []
    ensures c.targetDuration == durationMs
    ensures c.fps == 0 && c.frameCount == -1 && c.lastFrameTime == 0 && c.currentDuration == 0
  {
    Counter(Subscribers.New("FrameCounter", QUEUE_SIZE), durationMs, 0, -1, 0, 0)
  }

  /** Whether a frame at `frameTime` makes the accumulated duration exceed
      the target, so that `frameCallback` reports. */
  predicate ClosesWindow(c: Counter, frameTime: int) {
    c.currentDuration + (frameTime - c.lastFrameTime) > c.targetDuration
  }

  /** `frameCallback`: counts the frame and accumulates the time since the
      previous one. When the accumulated time exceeds the target, the rate
      becomes the count divided by the target's whole seconds (C++ integer
      division, truncating toward zero; a target from -999 to 999 ms has no
      whole second and would divide by zero, which the caller must rule out)
      and the window restarts; otherwise the rate is left as it was. */
  function FrameCallback(c: Counter, frameTime: int): (r: Counter)
    requires ClosesWindow(c, frameTime) ==> CDiv(c.targetDuration, 1000) != 0
    ensures r.base == c.base && r.targetDuration == c.targetDuration && r.lastFrameTime == frameTime
    ensures !ClosesWindow(c, frameTime) ==>
              && r.frameCount == c.frameCount + 1
              && r.currentDuration == c.currentDuration + (frameTime - c.lastFrameTime)
              && r.fps == c.fps
    ensures ClosesWindow(c, frameTime) ==>
              && r.frameCount == 0 && r.currentDuration == 0
              && Abs(r.fps) * Abs(CDiv(c.targetDuration, 1000)) <= Abs(c.frameCount + 1)
              && r.fps == CDiv(c.frameCount + 1, CDiv(c.targetDuration, 1000))
    ensures ClosesWindow(c, frameTime) && c.targetDuration >= 1000 && c.frameCount >= -1 ==>
              r.fps == (c.frameCount + 1) / (c.targetDuration / 1000)
    ensures c.frameCount >= -1 ==> r.frameCount >= 0
  {
    var count := c.frameCount + 1;
    var duration := frameTime - c.lastFrameTime;
    var acc := c.currentDuration + duration;
    if acc > c.targetDuration then
      c.(fps := CDiv(count, CDiv(c.targetDuration, 1000)), frameCount := 0,
         lastFrameTime := frameTime, currentDuration := 0)
    else
      c.(frameCount := count, lastFrameTime := frameTime, currentDuration := acc)
  }

  /** Feeds the frame times `ts` to `frameCallback` in order. A target of at
      least one second keeps every report defined. */
  function Run(c: Counter, ts: seq<int>): (r: Counter)
    requires c.targetDuration >= 1000
    ensures r.base == c.base && r.targetDuration == c.targetDuration
    ensures ts != [] ==> r.lastFrameTime == ts[|ts| - 1]
    ensures c.frameCount >= -1 ==> r.frameCount >= -1
    decreases |ts|
  {
    if ts == [] then c else Run(FrameCallback(c, ts[0]), ts[1..])
  }

  /** No frame of `ts` closes the window: the accumulated duration, which
      telescopes to the time since the window's reference frame, stays within
      the target. */
  predicate StaysInWindow(c: Counter, ts: seq<int>) {
    forall i :: 0 <= i < |ts| ==> c.currentDuration + (ts[i] - c.lastFrameTime) <= c.targetDuration
  }

  /** Within a window the count grows by one per frame, the accumulated
      duration is the time elapsed since the reference frame, and the
      reported rate does not change. */
  lemma {:induction false} RunWithinWindow(c: Counter, ts: seq<int>)
    requires c.targetDuration >= 1000 && ts != [] && StaysInWindow(c, ts)
    ensures Run(c, ts) == c.(frameCount := c.frameCount + |ts|,
                             currentDuration := c.currentDuration + (ts[|ts| - 1] - c.lastFrameTime),
                             lastFrameTime := ts[|ts| - 1])
    decreases |ts|
  {
    var c1 := FrameCallback(c, ts[0]);
    assert !ClosesWindow(c, ts[0]);
    if |ts| > 1 {
      assert StaysInWindow(c1, ts[1..]) by {
        forall i | 0 <= i < |ts[1..]|
          ensures c1.currentDuration + (ts[1..][i] - c1.lastFrameTime) <= c1.targetDuration
        {
          assert ts[1..][i] == ts[i + 1];
        }
      }
      RunWithinWindow(c1, ts[1..]);
    }
  }

  /** The frame that closes a window reports the frames counted since the
      window's reference frame, divided by the target's whole seconds, and
      restarts the window at its own time. */
  lemma {:induction false} WindowReport(c: Counter, ts: seq<int>)
    requires c.targetDuration >= 1000 && c.frameCount >= -1 && ts != []
    requires StaysInWindow(c, ts[..|ts| - 1])
    requires c.currentDuration + (ts[|ts| - 1] - c.lastFrameTime) > c.targetDuration
    ensures Run(c, ts) == c.(fps := (c.frameCount + |ts|) / (c.targetDuration / 1000),
                             frameCount := 0, currentDuration := 0, lastFrameTime := ts[|ts| - 1])
    decreases |ts|
  {
    var c1 := FrameCallback(c, ts[0]);
    if |ts| > 1 {
      assert ts[..|ts| - 1][0] == ts[0];
      assert !ClosesWindow(c, ts[0]);
      var before := ts[..|ts| - 1];
      var restBefore := ts[1..][..|ts| - 2];
      assert StaysInWindow(c1, restBefore) by {
        forall i | 0 <= i < |restBefore|
          ensures c1.currentDuration + (restBefore[i] - c1.lastFrameTime) <= c1.targetDuration
        {
          assert restBefore[i] == before[i + 1];
        }
      }
      WindowReport(c1, ts[1..]);
    }
  }

  /** The first report of a fresh counter: with frames at `ts` (relative to
      time 0), the rate is the number of frames after the first one, up to
      and including the first frame past the target, per whole second of the
      target. */
  lemma FirstReport(durationMs: int, ts: seq<int>)
    requires 1000 <= durationMs < INT32_LIMIT && ts != []
    requires forall i :: 0 <= i < |ts| - 1 ==> ts[i] <= durationMs
    requires ts[|ts| - 1] > durationMs
    ensures Run(New(durationMs), ts).fps == (|ts| - 1) / (durationMs / 1000)
    ensures Run(New(durationMs), ts).frameCount == 0 && Run(New(durationMs), ts).currentDuration == 0
  {
    var c := New(durationMs);
    var before := ts[..|ts| - 1];
    assert StaysInWindow(c, before) by {
      forall i | 0 <= i < |before|
        ensures c.currentDuration + (before[i] - c.lastFrameTime) <= c.targetDuration
      {
        assert before[i] == ts[i];
      }
    }
    WindowReport(c, ts);
  }

  /** A steady 25 frames per second stream (a frame every 40 ms) watched
      with the two-second window the application uses reports 25. */
  lemma SteadyStreamReportsItsRate()
    ensures Run(New(2000), seq(52, i => 40 * i)).fps == 25
  {
    var ts := seq(52, i => 40 * i);
    assert ts[51] == 2040;
    FirstReport(2000, ts);
  }
}

=== FILE: packet.dfy ===
/** The media `Packet`: a byte payload with timing metadata, a flag bitset and
    a classification of the H.264 NAL unit it carries. Every `Store` and `Add`
    re-runs `checkData`, which takes a 1 at byte 2 or else at byte 3 as the end
    of an Annex B start code (section B.1 of ITU-T H.264) without checking the
    zero bytes before it, reads the `nal_unit_type` of the header after it
    (Table 7-1, section 7.4.1 of ITU-T H.264) and recognises the first fragment of an IDR
    picture sent as an FU-A or FU-B fragmentation unit (section 5.8 of RFC
    6184). A `Packet::Ptr` is an `Option<Packet>`; ownership moves become value
    passing, so every copy is a deep copy. */
module Media {
  import opened Common

  /** `DEFAULT_PACKET_CAPACITY`: 240 KiB. */
  const DEFAULT_PACKET_CAPACITY: nat := 1024 * 240

  /** `PacketFlags`. */
  datatype PacketFlag = VideoPacket | AudioPacket | HasKeyFrame | IsCorrupted

  /** `NalUnitTypes`. */
  datatype NalUnitType = Unknown | SEI | SPS | PPS | IFrame | PFrame | BFrame

  /** The fields of `Packet`. `data` is the whole `m_data` vector, of which the
      first `size` bytes are the payload. The 64-bit and 32-bit fields are
      unbounded integers. */
  datatype Packet = Packet(
    size: nat,
    capacity: nat,
    data: seq<bv8>,
    nalUnit: NalUnitType,
    startCodeLength: int,
    flags: Flags,
    id: int,
    streamId: int,
    groupId: int,
    pts: int,
    dts: int,
    duration: int,
    metaData: string)

  /** The fields of libav's `AVPacket` that the packet is built from. */
  datatype AvPacket = AvPacket(data: seq<bv8>, pts: int, streamIndex: int, flags: bv32)

  /** libav's `AV_PKT_FLAG_KEY` and `AV_PKT_FLAG_CORRUPT`. */
  const AV_PKT_FLAG_KEY: bv32 := 0x0001
  const AV_PKT_FLAG_CORRUPT: bv32 := 0x0002

  /** The value of each `PacketFlags` enumerator. */
  function FlagBit(f: PacketFlag): (bit: bv32)
    ensures bit != 0 && bit & (bit - 1) == 0
    ensures bit & 0xF == bit
  {
    match f
    case VideoPacket => 0x0001
    case AudioPacket => 0x0002
    case HasKeyFrame => 0x0004
    case IsCorrupted => 0x0008
  }

  /** The flag constants are distinct single bits. */
  lemma FlagBitsDisjoint(f: PacketFlag, g: PacketFlag)
    ensures f != g <==> FlagBit(f) & FlagBit(g) == 0
  {
  }

  /** The `int32_t m_flags` word, one field per `PacketFlags` bit. Every
      writer of `m_flags` (the constructors, `AddFlag`, `RemoveFlag`,
      `RemoveAllFlag`, `Clone`) stores a combination of the four named bits,
      so no other bit of the word is ever set; `Word` and `FromWord` convert
      between this record and the word. */
  datatype Flags = Flags(video: bool, audio: bool, keyFrame: bool, corrupted: bool)

  const NoFlags := Flags(false, false, false, false)

  /** Whether the bit of `f` is set. */
  function Get(fl: Flags, f: PacketFlag): bool {
    match f
    case VideoPacket => fl.video
    case AudioPacket => fl.audio
    case HasKeyFrame => fl.keyFrame
    case IsCorrupted => fl.corrupted
  }

  /** Sets or clears the bit of `f`; no other bit changes. */
  function Put(fl: Flags, f: PacketFlag, v: bool): (r: Flags)
    ensures Get(r, f) == v
    ensures forall g :: g != f ==> Get(r, g) == Get(fl, g)
  {
    match f
    case VideoPacket => fl.(video := v)
    case AudioPacket => fl.(audio := v)
    case HasKeyFrame => fl.(keyFrame := v)
    case IsCorrupted => fl.(corrupted := v)
  }

  /** The flag word the record stands for. */
  function Word(fl: Flags): (w: bv32)
    ensures w & !0xF == 0
  {
    (if fl.video then 1 else 0) | (if fl.audio then 2 else 0)
    | (if fl.keyFrame then 4 else 0) | (if fl.corrupted then 8 else 0)
  }

  /** The four named bits of a flag word. */
  function FromWord(w: bv32): Flags {
    Flags(w & 1 != 0, w & 2 != 0, w & 4 != 0, w & 8 != 0)
  }

  /** The record and the word carry the same information, and `HasFlag`'s
      `(m_flags & int32_t(flag)) != 0` reads the record's field. */
  lemma {:induction false} WordRoundTrip(fl: Flags, f: PacketFlag)
    ensures FromWord(Word(fl)) == fl
    ensures Word(fl) & FlagBit(f) != 0 <==> Get(fl, f)
  {
    match f
    case VideoPacket =>
    case AudioPacket =>
    case HasKeyFrame =>
    case IsCorrupted =>
  }

  /** The flags of a freshly constructed packet: `m_flags(int32_t(flag))`. */
  function Only(f: PacketFlag): (fl: Flags)
    ensures Word(fl) == FlagBit(f)
    ensures forall g :: Get(fl, g) <==> g == f
  {
    Put(NoFlags, f, true)
  }

  /** `HasFlag`. */
  predicate HasFlag(p: Packet, f: PacketFlag) {
    Get(p.flags, f)
  }

  /** `HasFlag` is the bit test `(m_flags & int32_t(flag)) != 0` on the word. */
  lemma HasFlagIsBitTest(p: Packet, f: PacketFlag)
    ensures HasFlag(p, f) <==> Word(p.flags) & FlagBit(f) != 0
  {
    WordRoundTrip(p.flags, f);
  }

  /** `AddFlag`: sets one bit and leaves the other bits alone. */
  function AddFlag(p: Packet, f: PacketFlag): (r: Packet)
    ensures HasFlag(r, f)
    ensures forall g :: g != f ==> (HasFlag(r, g) <==> HasFlag(p, g))
    ensures r.(flags := p.flags) == p
  {
    p.(flags := Put(p.flags, f, true))
  }

  /** `AddFlag` is the bitwise OR `m_flags |= int32_t(flag)` on the word. */
  lemma AddFlagIsBitwiseOr(p: Packet, f: PacketFlag)
    ensures Word(AddFlag(p, f).flags) == Word(p.flags) | FlagBit(f)
  {
    var a, b := AddFlag(p, f).flags, p.flags;
    match f
    case VideoPacket => assert a == b.(video := true);
    case AudioPacket => assert a == b.(audio := true);
    case HasKeyFrame => assert a == b.(keyFrame := true);
    case IsCorrupted => assert a == b.(corrupted := true);
  }

  /** C++'s logical `!` applied to an integer: a `bool` that converts back to
      1 when the operand is zero and to 0 otherwise. */
  function LogicalNot(x: bv32): bv32 {
    if x == 0 then 1 else 0
  }

  /** `RemoveFlag` as written: `m_flags &= (!int32_t(flag))` masks the word
      with the logical negation of a non-zero constant, which is 0, so every
      flag is cleared and not only `f`. */
  function RemoveFlag(p: Packet, f: PacketFlag): (r: Packet)
    ensures r.flags == NoFlags && Word(r.flags) == 0
    ensures forall g :: !HasFlag(r, g)
    ensures r.(flags := p.flags) == p
  {
    p.(flags := FromWord(Word(p.flags) & LogicalNot(FlagBit(f))))
  }

  /** Removing the key-frame mark from a video key frame also drops its
      `VideoPacket` type flag. */
  lemma RemoveFlagDropsOtherFlags(p: Packet)
    requires HasFlag(p, VideoPacket) && HasFlag(p, HasKeyFrame)
    ensures !HasFlag(RemoveFlag(p, HasKeyFrame), VideoPacket)
  {
  }

  /** The flag removal the code evidently intends, `m_flags &= ~int32_t(flag)`
      (bitwise instead of logical negation): exactly the bit of `f` is
      cleared. */
  function ClearFlag(p: Packet, f: PacketFlag): (r: Packet)
    ensures !HasFlag(r, f)
    ensures forall g :: g != f ==> (HasFlag(r, g) <==> HasFlag(p, g))
    ensures r.(flags := p.flags) == p
  {
    MaskClearsOneBit(p.flags, f);
    p.(flags := FromWord(Word(p.flags) & !FlagBit(f)))
  }

  lemma {:induction false} MaskClearsOneBit(fl: Flags, f: PacketFlag)
    ensures FromWord(Word(fl) & !FlagBit(f)) == Put(fl, f, false)
  {
    match f
    case VideoPacket =>
    case AudioPacket =>
    case HasKeyFrame =>
    case IsCorrupted =>
  }

  /** `RemoveAllFlag`. */
  function RemoveAllFlags(p: Packet): (r: Packet)
    ensures forall g :: !HasFlag(r, g)
    ensures r.(flags := p.flags) == p
  {
    p.(flags := NoFlags)
  }

  /** `IsKey`. */
  predicate IsKey(p: Packet) {
    HasFlag(p, HasKeyFrame)
  }

  /** `isValid` as written: the size test is negated, so only packets of at
      most one byte can be valid. */
  predicate IsValid(p: Packet) {
    !(p.size > 1) && !HasFlag(p, IsCorrupted) && p.pts >= 0
  }

  /** `HasStartCode`. */
  predicate HasStartCode(p: Packet) {
    p.startCodeLength > 0
  }

  /** `IsKey` tests bit 2 of the flag word, the value of `HasKeyFrame`. */
  lemma IsKeyIsBitTest(p: Packet)
    ensures IsKey(p) <==> Word(p.flags) & 0x04 != 0
  {
    WordRoundTrip(p.flags, HasKeyFrame);
  }

  /** `isValid` on the flag word: at most one payload byte, bit 3 (the value
      of `IsCorrupted`) clear, and a non-negative pts. */
  lemma IsValidOnTheWord(p: Packet)
    ensures IsValid(p) <==> p.size <= 1 && Word(p.flags) & 0x08 == 0 && p.pts >= 0
  {
    WordRoundTrip(p.flags, IsCorrupted);
  }

  /** `PTS(value)`: an audio packet's decode time follows its presentation time. */
  function SetPts(p: Packet, v: int): (r: Packet)
    ensures r.pts == v
    ensures r.dts == (if HasFlag(p, AudioPacket) then v else p.dts)
    ensures r.(pts := p.pts, dts := p.dts) == p
  {
    var q := p.(pts := v);
    if HasFlag(p, AudioPacket) then q.(dts := v) else q
  }

  /** `DTS(value)`. */
  function SetDts(p: Packet, v: int): (r: Packet)
    ensures r.dts == v && r.(dts := p.dts) == p
  {
    p.(dts := v)
  }

  /** `GroupId(value)`. */
  function SetGroupId(p: Packet, v: int): (r: Packet)
    ensures r.groupId == v && r.(groupId := p.groupId) == p
  {
    p.(groupId := v)
  }

  /** `StreamId(value)`. */
  function SetStreamId(p: Packet, v: int): (r: Packet)
    ensures r.streamId == v && r.(streamId := p.streamId) == p
  {
    p.(streamId := v)
  }

  /** `Duration(value)`. */
  function SetDuration(p: Packet, v: int): (r: Packet)
    ensures r.duration == v && r.(duration := p.duration) == p
  {
    p.(duration := v)
  }

  /** `MetaData(value)`. */
  function SetMetaData(p: Packet, v: string): (r: Packet)
    ensures r.metaData == v && r.(metaData := p.metaData) == p
  {
    p.(metaData := v)
  }

  /** `n` zero bytes: what `std::vector<uint8_t>` construction and `resize`
      fill new elements with. */
  function Zeros(n: nat): (z: seq<bv8>)
    ensures |z| == n && forall i :: 0 <= i < n ==> z[i] == 0
  {
    seq(n, i => 0)
  }

  /** The payload never claims more bytes than the buffer holds. */
  predicate WellFormed(p: Packet) {
    p.size <= |p.data|
  }

  /** The logical payload: the first `size` bytes of the buffer. */
  function Payload(p: Packet): seq<bv8>
    requires WellFormed(p)
  {
    p.data[..p.size]
  }

  /** The four-argument constructor `Packet(accessor, newId, _capacity, flag)`. */
  function WithCapacity(newId: int, capacity: nat, flag: PacketFlag): (p: Packet)
    ensures WellFormed(p) && Payload(p) == [] && p.data == Zeros(capacity)
    ensures p.flags == Only(flag) && HasFlag(p, flag)
    ensures p.id == newId && p.capacity == capacity
    ensures p.nalUnit == Unknown && p.startCodeLength == 0
    ensures p.streamId == 0 && p.groupId == 0 && p.pts == 0 && p.dts == 0 && p.duration == 0
    ensures p.metaData == ""
  {
    Packet(0, capacity, Zeros(capacity), Unknown, 0, Only(flag), newId, 0, 0, 0, 0, 0, "")
  }

  /** The three-argument constructor `Packet(accessor, newId, flag)`, which
      delegates with `DEFAULT_PACKET_CAPACITY`. */
  function WithDefaultCapacity(newId: int, flag: PacketFlag): (p: Packet)
    ensures p.id == newId && p.capacity == DEFAULT_PACKET_CAPACITY
    ensures WellFormed(p) && p.size == 0 && p.data == Zeros(DEFAULT_PACKET_CAPACITY)
    ensures p.flags == Only(flag) && p.nalUnit == Unknown && p.startCodeLength == 0
    ensures p.streamId == 0 && p.groupId == 0 && p.pts == 0 && p.dts == 0 && p.duration == 0
    ensures p.metaData == ""
  {
    WithCapacity(newId, DEFAULT_PACKET_CAPACITY, flag)
  }

  /** `MakeVideoPacket`. */
  function MakeVideoPacket(newId: int, capacity: nat): (p: Packet)
    ensures HasFlag(p, VideoPacket) && !HasFlag(p, AudioPacket) && p.flags == Only(VideoPacket)
    ensures p.id == newId && p.capacity == capacity
    ensures WellFormed(p) && p.size == 0 && p.data == Zeros(capacity)
    ensures p.nalUnit == Unknown && p.startCodeLength == 0
    ensures p.streamId == 0 && p.groupId == 0 && p.pts == 0 && p.dts == 0 && p.duration == 0
    ensures p.metaData == ""
  {
    WithCapacity(newId, capacity, VideoPacket)
  }

  /** `MakeAudioPacket`. */
  function MakeAudioPacket(newId: int, capacity: nat): (p: Packet)
    ensures HasFlag(p, AudioPacket) && !HasFlag(p, VideoPacket) && p.flags == Only(AudioPacket)
    ensures p.id == newId && p.capacity == capacity
    ensures WellFormed(p) && p.size == 0 && p.data == Zeros(capacity)
    ensures p.nalUnit == Unknown && p.startCodeLength == 0
    ensures p.streamId == 0 && p.groupId == 0 && p.pts == 0 && p.dts == 0 && p.duration == 0
    ensures p.metaData == ""
  {
    WithCapacity(newId, capacity, AudioPacket)
  }

  /** The start-code length `checkData` detects: 3 when byte 2 is 1, else 4
      when byte 3 is 1, else 0. Only byte 2 and byte 3 are inspected. */
  function StartCodeLengthOf(buf: seq<bv8>): (n: nat)
    requires |buf| >= 4
    ensures n == 0 || n == 3 || n == 4
    ensures n > 0 <==> buf[2] == 1 || buf[3] == 1
    ensures n == 3 <==> buf[2] == 1
    ensures n == 4 <==> buf[2] != 1 && buf[3] == 1
  {
    if buf[2] == 1 then 3
    else if buf[3] == 1 then 4
    else 0
  }

  /** A genuine Annex B start code is recognised with its length. */
  lemma AnnexBStartCodesRecognised(buf: seq<bv8>)
    requires |buf| >= 4
    ensures buf[..3] == [0, 0, 1] ==> StartCodeLengthOf(buf) == 3
    ensures buf[..4] == [0, 0, 0, 1] ==> StartCodeLengthOf(buf) == 4
  {
    if buf[..3] == [0, 0, 1] {
      assert buf[2] == buf[..3][2];
    }
    if buf[..4] == [0, 0, 0, 1] {
      assert buf[2] == buf[..4][2] && buf[3] == buf[..4][3];
    }
  }

  /** Whether every byte `checkData` reads on the video path lies inside the
      buffer: bytes 2 and 3 (byte 3 only when byte 2 is not 1) and the two
      header bytes after the start code. */
  predicate ReadsInBounds(buf: seq<bv8>) {
    |buf| >= 4 && StartCodeLengthOf(buf) + 2 <= |buf|
  }

  lemma LongBuffersAreReadable(buf: seq<bv8>)
    requires |buf| >= 6
    ensures ReadsInBounds(buf)
  {
  }

  /** `fragment_type`, `nal_type`: the five low bits of a NAL or FU header byte. */
  function TypeBits(b: bv8): bv8 {
    b & 0x1F
  }

  /** The FU indicator of an FU-A (28) or FU-B (29) fragment followed by an FU
      header whose S bit is set and whose original NAL unit type is 5 (IDR
      slice): the first fragment of a key frame. */
  predicate StartsIdrFragment(b0: bv8, b1: bv8) {
    (TypeBits(b0) == 28 || TypeBits(b0) == 29) && TypeBits(b1) == 5 && b1 & 0x80 == 0x80
  }

  /** The type `checkData` derives from the two bytes after the start code.
      `checkData` first assigns `SEI` for type 6, but the if/else-if chain that
      follows always assigns again, so type 6 ends as `Unknown`; `BFrame` is
      never produced. */
  function NalUnitFromHeader(b0: bv8, b1: bv8): (t: NalUnitType)
    ensures t != SEI && t != BFrame
    ensures t == SPS <==> TypeBits(b0) == 7
    ensures t == PPS <==> TypeBits(b0) == 8
    ensures t == IFrame <==> TypeBits(b0) == 5 || StartsIdrFragment(b0, b1)
    ensures t == PFrame <==> TypeBits(b0) == 1
    ensures TypeBits(b0) == 6 ==> t == Unknown
  {
    var fragmentType := TypeBits(b0);
    if fragmentType == 7 then SPS
    else if fragmentType == 8 then PPS
    else if StartsIdrFragment(b0, b1) || fragmentType == 5 then IFrame
    else if fragmentType == 1 then PFrame
    else Unknown
  }

  /** `checkData` returns early for a packet whose flags say audio and not video. */
  predicate AudioShortCircuit(p: Packet) {
    !HasFlag(p, VideoPacket) && HasFlag(p, AudioPacket)
  }

  /** What `checkData` needs of the packet so that it reads no byte outside
      the buffer. */
  predicate Classifiable(p: Packet) {
    AudioShortCircuit(p) || ReadsInBounds(p.data)
  }

  /** The video path of `checkData`, after the flags were reset. */
  function ClassifyPayload(q: Packet): (r: Packet)
    requires ReadsInBounds(q.data)
  {
    var sc := StartCodeLengthOf(q.data);
    var nal := NalUnitFromHeader(q.data[sc], q.data[sc + 1]);
    var r := q.(startCodeLength := sc, nalUnit := nal);
    if nal == IFrame then AddFlag(r, HasKeyFrame) else r
  }

  /** `checkData`: keeps only the type flag (video wins over audio), then
      either marks an audio packet `Unknown` without a start code, or
      classifies the header after the start code and sets `HasKeyFrame`
      exactly for an I-frame. Nothing outside the classification changes. */
  function CheckData(p: Packet): (r: Packet)
    requires Classifiable(p)
    ensures r.(nalUnit := p.nalUnit, startCodeLength := p.startCodeLength, flags := p.flags) == p
    ensures HasFlag(r, VideoPacket) == HasFlag(p, VideoPacket)
    ensures HasFlag(r, AudioPacket) == AudioShortCircuit(p)
    ensures !HasFlag(r, IsCorrupted)
    ensures HasFlag(r, HasKeyFrame) <==> r.nalUnit == IFrame
    ensures AudioShortCircuit(p) ==> r.nalUnit == Unknown && r.startCodeLength == 0
    ensures !AudioShortCircuit(p) ==>
              && r.startCodeLength == StartCodeLengthOf(p.data)
              && (HasStartCode(r) <==> p.data[2] == 1 || p.data[3] == 1)
              && r.nalUnit == NalUnitFromHeader(p.data[r.startCodeLength], p.data[r.startCodeLength + 1])
    ensures r.nalUnit != SEI && r.nalUnit != BFrame
  {
    var cleared := RemoveAllFlags(p);
    if HasFlag(p, VideoPacket) then ClassifyPayload(AddFlag(cleared, VideoPacket))
    else if HasFlag(p, AudioPacket) then AddFlag(cleared, AudioPacket).(startCodeLength := 0, nalUnit := Unknown)
    else ClassifyPayload(cleared)
  }

  /** Classifying an already classified packet changes nothing. */
  lemma CheckDataIdempotent(p: Packet)
    requires Classifiable(p)
    ensures Classifiable(CheckData(p))
    ensures CheckData(CheckData(p)) == CheckData(p)
  {
    var r := CheckData(p);
    assert AudioShortCircuit(r) == AudioShortCircuit(p);
  }

  /** `HasStartCode` after `checkData`: an audio packet never has one, and
      otherwise one was found exactly when byte 2 or byte 3 is 1. */
  lemma HasStartCodeAfterCheck(p: Packet)
    requires Classifiable(p)
    ensures HasStartCode(CheckData(p)) <==> !AudioShortCircuit(p) && (p.data[2] == 1 || p.data[3] == 1)
  {
  }

  function Max(a: nat, b: nat): nat {
    if a < b then b else a
  }

  /** The buffer after `Store` copies `d` to its start: it grows to `|d|`
      when shorter and never shrinks; bytes past `|d|` are kept. */
  function StoredBuffer(buf: seq<bv8>, d: seq<bv8>): (r: seq<bv8>)
    ensures |r| == Max(|buf|, |d|)
    ensures r[..|d|] == d
    ensures forall i :: |d| <= i < |buf| ==> r[i] == buf[i]
  {
    if |buf| < |d| then d else d + buf[|d|..]
  }

  /** `Store(d, length)`: the payload becomes `d` and the packet is
      reclassified. */
  function Store(p: Packet, d: seq<bv8>): (r: Packet)
    requires Classifiable(p.(data := StoredBuffer(p.data, d)))
    ensures WellFormed(r) && Payload(r) == d
    ensures r.data == StoredBuffer(p.data, d)
    ensures Classifiable(r) && CheckData(r) == r
    ensures HasFlag(r, VideoPacket) == HasFlag(p, VideoPacket)
    ensures HasFlag(r, AudioPacket) == AudioShortCircuit(p)
    ensures !HasFlag(r, IsCorrupted)
    ensures IsKey(r) <==> r.nalUnit == IFrame
    ensures r.(size := p.size, data := p.data, nalUnit := p.nalUnit,
               startCodeLength := p.startCodeLength, flags := p.flags) == p
  {
    var q := p.(size := |d|, data := StoredBuffer(p.data, d));
    CheckDataIdempotent(q);
    CheckData(q)
  }

  /** The buffer after `Add` copies `d` to offset `size`: it grows (with
      zero bytes) to `size + |d|` when shorter and never shrinks. */
  function AddedBuffer(buf: seq<bv8>, size: nat, d: seq<bv8>): (r: seq<bv8>)
    ensures |r| == Max(|buf|, size + |d|)
    ensures r[size..size + |d|] == d
    ensures forall i :: 0 <= i < size && i < |buf| ==> r[i] == buf[i]
    ensures forall i :: size + |d| <= i < |buf| ==> r[i] == buf[i]
  {
    var grown := if |buf| < size + |d| then buf + Zeros(size + |d| - |buf|) else buf;
    grown[..size] + d + grown[size + |d|..]
  }

  /** `Add(d, length)`: `d` is appended to the payload and the packet is
      reclassified. */
  function Add(p: Packet, d: seq<bv8>): (r: Packet)
    requires Classifiable(p.(data := AddedBuffer(p.data, p.size, d)))
    ensures WellFormed(r) && r.size == p.size + |d|
    ensures WellFormed(p) ==> Payload(r) == Payload(p) + d
    ensures |r.data| == Max(|p.data|, p.size + |d|)
    ensures forall i :: p.size + |d| <= i < |p.data| ==> r.data[i] == p.data[i]
    ensures Classifiable(r) && CheckData(r) == r
    ensures HasFlag(r, VideoPacket) == HasFlag(p, VideoPacket)
    ensures HasFlag(r, AudioPacket) == AudioShortCircuit(p)
    ensures IsKey(r) <==> r.nalUnit == IFrame
    ensures r.(size := p.size, data := p.data, nalUnit := p.nalUnit,
               startCodeLength := p.startCodeLength, flags := p.flags) == p
  {
    var q := p.(size := p.size + |d|, data := AddedBuffer(p.data, p.size, d));
    CheckDataIdempotent(q);
    assert WellFormed(p) ==> Payload(q) == Payload(p) + d by {
      if WellFormed(p) {
        assert Payload(q) == q.data[..p.size] + q.data[p.size..p.size + |d|];
      }
    }
    CheckData(q)
  }

  /** Storing then appending leaves the concatenation as the payload. */
  lemma StoreThenAdd(p: Packet, a: seq<bv8>, b: seq<bv8>)
    requires Classifiable(p.(data := StoredBuffer(p.data, a)))
    requires Classifiable(Store(p, a).(data := AddedBuffer(Store(p, a).data, |a|, b)))
    ensures Payload(Add(Store(p, a), b)) == a + b
  {
  }

  /** `Clone` as written: it calls the three-argument constructor with the
      original's capacity as the new id, then copies flags, start-code length,
      timing, ids, size, duration and the whole buffer. The NAL type, the id
      and the metadata are not copied, and the capacity is the default. */
  function Clone(p: Packet): (r: Packet)
    ensures r.data == p.data && r.size == p.size
    ensures WellFormed(p) ==> WellFormed(r) && Payload(r) == Payload(p)
    ensures r.flags == p.flags && r.startCodeLength == p.startCodeLength
    ensures r.pts == p.pts && r.dts == p.dts && r.duration == p.duration
    ensures r.groupId == p.groupId && r.streamId == p.streamId
    ensures r.nalUnit == Unknown && r.id == p.capacity
    ensures r.capacity == DEFAULT_PACKET_CAPACITY && r.metaData == ""
  {
    var q := WithDefaultCapacity(p.capacity, VideoPacket);
    q.(flags := p.flags, startCodeLength := p.startCodeLength, pts := p.pts, dts := p.dts,
       groupId := p.groupId, streamId := p.streamId, size := p.size,
       duration := p.duration, data := p.data)
  }

  /** Reclassifying a clone of a classified packet recovers the NAL type the
      clone lost, and nothing else changes. */
  lemma CloneReclassifies(p: Packet)
    requires Classifiable(p) && CheckData(p) == p
    ensures Classifiable(Clone(p))
    ensures CheckData(Clone(p)) == Clone(p).(nalUnit := p.nalUnit)
  {
    assert AudioShortCircuit(Clone(p)) == AudioShortCircuit(p);
  }

  /** `Clear`: empties the payload and buffer and resets classification,
      flags, stream id, group id and pts; dts, duration, id, capacity and
      metadata are kept. */
  function Clear(p: Packet): (r: Packet)
    ensures WellFormed(r) && r.size == 0 && r.data == []
    ensures r.nalUnit == Unknown && r.startCodeLength == 0 && !HasStartCode(r)
    ensures forall g :: !HasFlag(r, g)
    ensures r.streamId == 0 && r.groupId == 0 && r.pts == 0
    ensures r.dts == p.dts && r.duration == p.duration && r.id == p.id
    ensures r.capacity == p.capacity && r.metaData == p.metaData
  {
    p.(size := 0, data := [], nalUnit := Unknown, startCodeLength := 0, flags := NoFlags,
       streamId := 0, groupId := 0, pts := 0)
  }

  /** After `Clear` the buffer is empty and the flags are zero, so `checkData`
      would take the video path and read past the end: its reads of bytes 2
      to 5 are out of bounds there. */
  lemma ClearedPacketIsNotClassifiable(p: Packet)
    ensures !Classifiable(Clear(p))
  {
  }

  /** `Store` leaves the classification `checkData` computes from the stored
      buffer: none on the audio path, otherwise the start code and the type
      of the header after it. */
  lemma StoreClassifies(p: Packet, d: seq<bv8>)
    requires Classifiable(p.(data := StoredBuffer(p.data, d)))
    ensures AudioShortCircuit(p) ==> Store(p, d).nalUnit == Unknown && Store(p, d).startCodeLength == 0
    ensures !AudioShortCircuit(p) ==>
              var r := Store(p, d);
              && r.startCodeLength == StartCodeLengthOf(r.data)
              && r.nalUnit == NalUnitFromHeader(r.data[r.startCodeLength], r.data[r.startCodeLength + 1])
  {
    assert AudioShortCircuit(p) == AudioShortCircuit(p.(size := |d|, data := StoredBuffer(p.data, d)));
  }

  /** What `CreateFromAVPacket` does to the freshly constructed packet `p0`:
      the bytes are stored (and classified), pts and stream index are copied,
      and after classification the requested flag and the libav key-frame and
      corrupt flags are ORed in. */
  function FillFromAvPacket(p0: Packet, av: AvPacket, flag: PacketFlag): (p: Packet)
    requires p0 == WithCapacity(p0.id, p0.capacity, flag) && p0.capacity >= 6
    ensures WellFormed(p) && Payload(p) == av.data
    ensures p.id == p0.id && p.capacity == p0.capacity && |p.data| == Max(p0.capacity, |av.data|)
    ensures p.pts == av.pts && p.streamId == av.streamIndex
    ensures p.dts == (if flag == AudioPacket then av.pts else 0)
    ensures HasFlag(p, flag)
    ensures HasFlag(p, VideoPacket) <==> flag == VideoPacket
    ensures HasFlag(p, AudioPacket) <==> flag == AudioPacket
    ensures IsKey(p) <==> p.nalUnit == IFrame || flag == HasKeyFrame || av.flags & AV_PKT_FLAG_KEY != 0
    ensures HasFlag(p, IsCorrupted) <==> flag == IsCorrupted || av.flags & AV_PKT_FLAG_CORRUPT != 0
    ensures flag == AudioPacket ==> p.nalUnit == Unknown && p.startCodeLength == 0
    ensures flag != AudioPacket ==> p.startCodeLength == StartCodeLengthOf(p.data)
    ensures flag != AudioPacket ==>
              p.nalUnit == NalUnitFromHeader(p.data[p.startCodeLength], p.data[p.startCodeLength + 1])
    ensures p.groupId == 0 && p.duration == 0 && p.metaData == ""
    ensures p.data == StoredBuffer(p0.data, av.data)
    ensures forall i :: |av.data| <= i < |p.data| ==> p.data[i] == 0
  {
    LongBuffersAreReadable(StoredBuffer(p0.data, av.data));
    var p1 := Store(p0, av.data);
    StoreClassifies(p0, av.data);
    MarkFromAvPacket(p1, av, flag)
  }

  /** The steps of `CreateFromAVPacket` after `Store`: pts (and, for audio,
      dts) and the stream index are copied, then the requested flag and the
      libav key-frame and corrupt flags are ORed in. The payload and its
      classification are untouched. */
  function MarkFromAvPacket(p1: Packet, av: AvPacket, flag: PacketFlag): (p: Packet)
    ensures p.(flags := p1.flags, pts := p1.pts, dts := p1.dts, streamId := p1.streamId) == p1
    ensures p.pts == av.pts && p.streamId == av.streamIndex
    ensures p.dts == (if HasFlag(p1, AudioPacket) then av.pts else p1.dts)
    ensures forall g :: HasFlag(p, g) <==>
              || HasFlag(p1, g) || g == flag
              || (g == HasKeyFrame && av.flags & AV_PKT_FLAG_KEY != 0)
              || (g == IsCorrupted && av.flags & AV_PKT_FLAG_CORRUPT != 0)
  {
    var p2 := SetStreamId(SetPts(p1, av.pts), av.streamIndex);
    var p3 := AddFlag(p2, flag);
    var p4 := if av.flags & AV_PKT_FLAG_KEY != 0 then AddFlag(p3, HasKeyFrame) else p3;
    if av.flags & AV_PKT_FLAG_CORRUPT != 0 then AddFlag(p4, IsCorrupted) else p4
  }

  /** `CreateFromAVPacket(newId, pkt, flag)` as written: a null or shorter
      than two bytes `AVPacket` gives a null packet. Otherwise the packet is
      built by the three-argument constructor with `pkt->size + 100` in the
      id parameter, so `newId` is unused and the capacity is the default. */
  function CreateFromAvPacket(newId: int, pkt: Option<AvPacket>, flag: PacketFlag): (r: Option<Packet>)
    ensures r.None? <==> pkt.None? || |pkt.value.data| < 2
    ensures r.Some? ==>
              var av, p := pkt.value, r.value;
              && WellFormed(p) && Payload(p) == av.data
              && p.id == |av.data| + 100 && p.capacity == DEFAULT_PACKET_CAPACITY
              && |p.data| == Max(DEFAULT_PACKET_CAPACITY, |av.data|)
              && p.pts == av.pts && p.streamId == av.streamIndex
              && p.dts == (if flag == AudioPacket then av.pts else 0)
              && HasFlag(p, flag)
              && (HasFlag(p, VideoPacket) <==> flag == VideoPacket)
              && (HasFlag(p, AudioPacket) <==> flag == AudioPacket)
              && (IsKey(p) <==> p.nalUnit == IFrame || flag == HasKeyFrame || av.flags & AV_PKT_FLAG_KEY != 0)
              && (HasFlag(p, IsCorrupted) <==> flag == IsCorrupted || av.flags & AV_PKT_FLAG_CORRUPT != 0)
              && (flag == AudioPacket ==> p.nalUnit == Unknown && p.startCodeLength == 0)
              && (flag != AudioPacket ==> p.startCodeLength == StartCodeLengthOf(p.data))
              && (flag != AudioPacket ==>
                    p.nalUnit == NalUnitFromHeader(p.data[p.startCodeLength], p.data[p.startCodeLength + 1]))
              && (forall i :: |av.data| <= i < |p.data| ==> p.data[i] == 0)
  {
    if pkt.None? || |pkt.value.data| < 2 then None
    else Some(FillFromAvPacket(WithDefaultCapacity(|pkt.value.data| + 100, flag), pkt.value, flag))
  }

  /** The bytes `checkData` reads past a short payload are the constructor's
      zeros: a two-byte video source `00 00` has no start code, type
      Unknown, and no key frame unless libav marked one. */
  lemma TwoByteSourceIsUnclassified(newId: int, pts: int, streamIndex: int)
    ensures var r := CreateFromAvPacket(newId, Some(AvPacket([0, 0], pts, streamIndex, 0)), VideoPacket);
            && r.Some? && r.value.startCodeLength == 0 && r.value.nalUnit == Unknown && !IsKey(r.value)
  {
    var p := CreateFromAvPacket(newId, Some(AvPacket([0, 0], pts, streamIndex, 0)), VideoPacket).value;
    assert p.data[2] == 0 && p.data[3] == 0;
    assert p.data[0] == Payload(p)[0] && p.data[1] == Payload(p)[1];
  }

  /** The id of a created packet does not depend on the id the caller asks
      for: two bytes requested under id 7 come back with id 102. */
  lemma CreatedPacketIgnoresNewId()
    ensures var r := CreateFromAvPacket(7, Some(AvPacket([0, 0], 0, 0, 0)), VideoPacket);
            r.Some? && r.value.id == 102
  {
  }

  /** `CreateFromAVPacket` as evidently intended: the four-argument
      constructor with `newId` as the id and `pkt->size + 100` as the
      capacity, so the packet carries the id the caller assigned (the read
      loop numbers its packets) and a buffer sized to its payload. */
  function CreateFromAvPacketWithId(newId: int, pkt: Option<AvPacket>, flag: PacketFlag): (r: Option<Packet>)
    ensures r.None? <==> pkt.None? || |pkt.value.data| < 2
    ensures r.Some? ==>
              var av, p := pkt.value, r.value;
              && WellFormed(p) && Payload(p) == av.data
              && p.id == newId && p.capacity == |av.data| + 100 && |p.data| == p.capacity
              && p.pts == av.pts && p.streamId == av.streamIndex
              && p.dts == (if flag == AudioPacket then av.pts else 0)
              && HasFlag(p, flag)
              && (HasFlag(p, VideoPacket) <==> flag == VideoPacket)
              && (HasFlag(p, AudioPacket) <==> flag == AudioPacket)
              && (IsKey(p) <==> p.nalUnit == IFrame || flag == HasKeyFrame || av.flags & AV_PKT_FLAG_KEY != 0)
              && (HasFlag(p, IsCorrupted) <==> flag == IsCorrupted || av.flags & AV_PKT_FLAG_CORRUPT != 0)
              && (flag == AudioPacket ==> p.nalUnit == Unknown && p.startCodeLength == 0)
              && (flag != AudioPacket ==> p.startCodeLength == StartCodeLengthOf(p.data))
              && (flag != AudioPacket ==>
                    p.nalUnit == NalUnitFromHeader(p.data[p.startCodeLength], p.data[p.startCodeLength + 1]))
              && (forall i :: |av.data| <= i < |p.data| ==> p.data[i] == 0)
  {
    if pkt.None? || |pkt.value.data| < 2 then None
    else Some(FillFromAvPacket(WithCapacity(newId, |pkt.value.data| + 100, flag), pkt.value, flag))
  }

  /** Packets created with distinct ids stay distinguishable, which the
      as-written creation does not guarantee. */
  lemma CreatedIdsFollowTheCaller(a: int, b: int, pkt: AvPacket, flag: PacketFlag)
    requires |pkt.data| >= 2 && a != b
    ensures CreateFromAvPacketWithId(a, Some(pkt), flag).value.id != CreateFromAvPacketWithId(b, Some(pkt), flag).value.id
    ensures CreateFromAvPacket(a, Some(pkt), flag).value.id == CreateFromAvPacket(b, Some(pkt), flag).value.id
  {
  }

  /** Every packet `CreateFromAVPacket` returns holds at least two bytes, so
      `isValid` (which demands at most one) rejects it. */
  lemma CreatedPacketsAreNeverValid(newId: int, pkt: Option<AvPacket>, flag: PacketFlag)
    requires CreateFromAvPacket(newId, pkt, flag).Some?
    ensures !IsValid(CreateFromAvPacket(newId, pkt, flag).value)
  {
  }

  /** The text of each `NalUnitTypes` enumerator, never "Audio". */
  function NalUnitName(t: NalUnitType): (s: string)
    ensures s != "Audio" && s != "Invalid_Packet"
  {
    match t
    case Unknown => "Unknown"
    case SEI => "SEI"
    case SPS => "SPS"
    case PPS => "PPS"
    case IFrame => "I_Frame"
    case PFrame => "P_Frame"
    case BFrame => "B_Frame"
  }

  /** Distinct NAL types have distinct texts. */
  lemma NalUnitNamesDistinct(t: NalUnitType, u: NalUnitType)
    ensures NalUnitName(t) == NalUnitName(u) <==> t == u
  {
  }

  /** `NalUnitTypeString`: "Audio" for an audio packet, otherwise the name of
      its NAL type. */
  function NalUnitTypeString(p: Packet): (s: string)
    ensures s == "Audio" <==> HasFlag(p, AudioPacket)
    ensures !HasFlag(p, AudioPacket) ==> s == NalUnitName(p.nalUnit)
  {
    if HasFlag(p, AudioPacket) then "Audio" else NalUnitName(p.nalUnit)
  }

  /** `PacketTypeToString`: "Invalid_Packet" exactly for a null packet. */
  function PacketTypeToString(pkt: Option<Packet>): (s: string)
    ensures s == "Invalid_Packet" <==> pkt.None?
    ensures pkt.Some? ==> s == NalUnitTypeString(pkt.value)
  {
    if pkt.None? then "Invalid_Packet" else NalUnitTypeString(pkt.value)
  }

  /** A 3-byte start code followed by NAL header 0x67 (type 7) is an SPS and
      not a key frame; with header 0x65 (type 5) it is an I-frame and a key
      frame; with 0x06 (type 6, SEI) it is Unknown. */
  lemma ThreeByteStartCodeExamples(newId: int, capacity: nat, rest: seq<bv8>)
    requires |rest| >= 2
    ensures var p := MakeVideoPacket(newId, capacity);
            && Store(p, [0, 0, 1, 0x67] + rest).nalUnit == SPS
            && !IsKey(Store(p, [0, 0, 1, 0x67] + rest))
            && Store(p, [0, 0, 1, 0x65] + rest).nalUnit == IFrame
            && IsKey(Store(p, [0, 0, 1, 0x65] + rest))
            && Store(p, [0, 0, 1, 0x06] + rest).nalUnit == Unknown
  {
    var p := MakeVideoPacket(newId, capacity);
    ExampleHeader(p, [0, 0, 1, 0x67] + rest);
    ExampleHeader(p, [0, 0, 1, 0x65] + rest);
    ExampleHeader(p, [0, 0, 1, 0x06] + rest);
  }

  /** A 4-byte start code followed by an FU-A indicator (0x7C, type 28) and
      an FU header with the S bit and type 5 (0x85) is an I-frame; without
      the S bit (0x05) it is Unknown. */
  lemma FragmentedIdrExamples(newId: int, capacity: nat)
    ensures var p := MakeVideoPacket(newId, capacity);
            && Store(p, [0, 0, 0, 1, 0x7C, 0x85]).nalUnit == IFrame
            && Store(p, [0, 0, 0, 1, 0x7C, 0x05]).nalUnit == Unknown
  {
    var p := MakeVideoPacket(newId, capacity);
    ExampleHeader(p, [0, 0, 0, 1, 0x7C, 0x85]);
    ExampleHeader(p, [0, 0, 0, 1, 0x7C, 0x05]);
  }

  /** Storing a payload of at least six bytes into a video packet is always
      defined, and the header bytes are read from the payload itself. */
  lemma ExampleHeader(p: Packet, d: seq<bv8>)
    requires HasFlag(p, VideoPacket) && |d| >= 6
    ensures Classifiable(p.(data := StoredBuffer(p.data, d)))
    ensures var r := Store(p, d);
            && r.startCodeLength == StartCodeLengthOf(d)
            && r.nalUnit == NalUnitFromHeader(d[r.startCodeLength], d[r.startCodeLength + 1])
  {
    var buf := StoredBuffer(p.data, d);
    LongBuffersAreReadable(buf);
    assert buf[..|d|] == d;
    assert forall i :: 0 <= i < 6 ==> buf[i] == d[i] by {
      forall i | 0 <= i < 6 ensures buf[i] == d[i] {
        assert buf[..|d|][i] == buf[i];
      }
    }
  }
}

=== FILE: packet_source.dfy ===
/** `AVPacketSource`'s subscriber registry and fan-out. A
    `PacketSourceSubscriberPtr` is a `Handle`, the address of a subscriber
    object in the hub's heap of objects: the application and the registry
    hold the same handle and so see one object, including the identity it
    memoizes the first time `ObjectId()` is called on it. The registry mutex
    disappears in a sequential model. */
module PacketSource {
  import opened Common
  import Media
  import opened Subscribers

  /** The address a `PacketSourceSubscriberPtr` holds. */
  type Handle = nat

  /** The publisher's running state: `m_needToStop`, `m_isStarted`. */
  datatype Source = Source(needToStop: bool, isStarted: bool)

  /** The publisher, its registry (`m_PacketSubscribers`, in list order), the
      subscriber objects the handles point to, and the next unused address. */
  datatype Hub = Hub(source: Source, registry: seq<Handle>, objects: map<Handle, Subscriber>, next: Handle)

  /** Every registry entry points to an object. */
  predicate Known(reg: seq<Handle>, objs: map<Handle, Subscriber>) {
    forall i :: 0 <= i < |reg| ==> reg[i] in objs
  }

  /** No handle appears twice. */
  predicate Distinct(reg: seq<Handle>) {
    forall i, j :: 0 <= i < j < |reg| ==> reg[i] != reg[j]
  }

  /** What every reachable hub satisfies: the registry points to objects,
      each once, and every object lies below `next`. Once two or more
      objects are registered, every registered object has stored its
      identity and no two store the same one. A subscriber pushed onto an
      empty registry is compared with nobody, so it may have no identity
      yet; the next comparison gives it one. */
  predicate Wf(h: Hub) {
    && Known(h.registry, h.objects)
    && Distinct(h.registry)
    && (forall x :: x in h.objects ==> x < h.next)
    && (|h.registry| >= 2 ==>
          forall x :: x in h.registry && x in h.objects ==> HasIdentity(h.objects[x]))
    && (forall x, y :: x in h.registry && y in h.registry && x in h.objects && y in h.objects && x != y ==>
          h.objects[x].objectId != h.objects[y].objectId)
  }

  /** For each object, the suffix `randomString()` returns if that object
      computes its identity during the call; the generator itself is left
      out. An object computes its identity at most once, so a suffix per
      object covers every outcome of the generator. */
  predicate Draws(objs: map<Handle, Subscriber>, draws: map<Handle, string>) {
    forall x :: x in objs ==> x in draws && IsRandomSuffix(draws[x])
  }

  /** What `ObjectId()` returns for the object at `x`. */
  function Ident(objs: map<Handle, Subscriber>, draws: map<Handle, string>, x: Handle): Id
    requires x in objs && Draws(objs, draws)
  {
    ObjectId(objs[x], draws[x]).0
  }

  /** `after` is `before` with identities stored in some objects: the same
      addresses, every object as it was but for its stored identity, a stored
      identity kept, and every object's `ObjectId()` unchanged. */
  predicate IdentitiesStored(before: map<Handle, Subscriber>, after: map<Handle, Subscriber>,
                             draws: map<Handle, string>)
    requires Draws(before, draws)
  {
    && after.Keys == before.Keys
    && Draws(after, draws)
    && forall x :: x in before ==>
         && after[x] == before[x].(objectId := after[x].objectId)
         && (HasIdentity(before[x]) ==> after[x] == before[x])
         && Ident(after, draws, x) == Ident(before, draws, x)
  }

  lemma IdentitiesStoredTrans(a: map<Handle, Subscriber>, b: map<Handle, Subscriber>,
                              c: map<Handle, Subscriber>, draws: map<Handle, string>)
    requires Draws(a, draws) && IdentitiesStored(a, b, draws) && IdentitiesStored(b, c, draws)
    ensures IdentitiesStored(a, c, draws)
  {
  }

  /** `ObjectId()` called on the object at `x`: the identity, and the heap
      with that identity stored in the object. */
  function Memoize(objs: map<Handle, Subscriber>, draws: map<Handle, string>, x: Handle)
    : (r: (Id, map<Handle, Subscriber>))
    requires x in objs && Draws(objs, draws)
    ensures r.0 == Ident(objs, draws, x)
    ensures IdentitiesStored(objs, r.1, draws)
    ensures HasIdentity(r.1[x]) && r.1[x].objectId == r.0
    ensures forall y :: y in objs && y != x ==> r.1[y] == objs[y]
  {
    var (id, s) := ObjectId(objs[x], draws[x]);
    (id, objs[x := s])
  }

  /** The position of the first entry whose `ObjectId()` equals the one of
      the subscriber at `k`, or `|entries|` when there is none. */
  function FirstMatch(objs: map<Handle, Subscriber>, draws: map<Handle, string>,
                      k: Handle, entries: seq<Handle>): (i: nat)
    requires k in objs && Draws(objs, draws) && Known(entries, objs)
    ensures i <= |entries|
    ensures i < |entries| ==> Ident(objs, draws, entries[i]) == Ident(objs, draws, k)
    ensures forall j :: 0 <= j < i ==> Ident(objs, draws, entries[j]) != Ident(objs, draws, k)
    decreases |entries|
  {
    if entries == [] then 0
    else if Ident(objs, draws, entries[0]) == Ident(objs, draws, k) then 0
    else
      assert Known(entries[1..], objs);
      1 + FirstMatch(objs, draws, k, entries[1..])
  }

  /** `ObjectId()` called on each object of `hs`, in order. */
  function MemoizeAll(objs: map<Handle, Subscriber>, draws: map<Handle, string>, hs: seq<Handle>)
    : (r: map<Handle, Subscriber>)
    requires Draws(objs, draws) && Known(hs, objs)
    ensures IdentitiesStored(objs, r, draws)
    ensures forall j :: 0 <= j < |hs| ==> HasIdentity(r[hs[j]])
    ensures forall x :: x in objs && x !in hs ==> r[x] == objs[x]
    decreases |hs|
  {
    if hs == [] then objs
    else
      var objs1 := Memoize(objs, draws, hs[0]).1;
      assert Known(hs[1..], objs1);
      var r := MemoizeAll(objs1, draws, hs[1..]);
      IdentitiesStoredTrans(objs, objs1, r, draws);
      assert forall j :: 1 <= j < |hs| ==> hs[j] == hs[1..][j - 1];
      r
  }

  /** The `std::find_if` of `Subscribe` and `Unsubscribe`: walks `entries` in
      order, calling `ObjectId()` on the subscriber at `k` and then on the
      entry, and stops at the first entry with the subscriber's identity.
      Returns that entry's position (`|entries|` when none matches) and the
      heap with the identities computed on the way stored: the subscriber's
      and every entry up to the match, and none when `entries` is empty. */
  function FindByIdentity(objs: map<Handle, Subscriber>, draws: map<Handle, string>,
                          k: Handle, entries: seq<Handle>): (r: (nat, map<Handle, Subscriber>))
    requires k in objs && Draws(objs, draws) && Known(entries, objs)
    ensures r.0 <= |entries|
    ensures IdentitiesStored(objs, r.1, draws)
    ensures r.0 < |entries| ==> Ident(objs, draws, entries[r.0]) == Ident(objs, draws, k)
    ensures forall j :: 0 <= j < r.0 ==> Ident(objs, draws, entries[j]) != Ident(objs, draws, k)
    ensures entries == [] ==> r.1 == objs
    ensures entries != [] ==> HasIdentity(r.1[k])
    ensures forall j :: 0 <= j < |entries| && j <= r.0 ==> HasIdentity(r.1[entries[j]])
    ensures forall x :: x in objs && x != k && (forall j :: 0 <= j < |entries| && j <= r.0 ==> entries[j] != x) ==>
              r.1[x] == objs[x]
  {
    var i := FirstMatch(objs, draws, k, entries);
    var compared := if entries == [] then [] else [k] + entries[..if i < |entries| then i + 1 else i];
    assert forall j :: 0 <= j < |entries| && j <= i ==> entries[j] == compared[j + 1];
    (i, MemoizeAll(objs, draws, compared))
  }

  /** `a` is `b` with some elements left out, in the same order. */
  predicate IsSubsequence<T(==)>(a: seq<T>, b: seq<T>)
    decreases |b|
  {
    if a == [] then true
    else if b == [] then false
    else if a[0] == b[0] then IsSubsequence(a[1..], b[1..])
    else IsSubsequence(a, b[1..])
  }

  /** `AVPacketSource()`: neither started nor stopping, nobody registered. */
  function NewHub(): (h: Hub)
    ensures Wf(h) && h.registry == [] && h.objects == map[]
    ensures !h.source.needToStop && !h.source.isStarted
  {
    Hub(Source(false, false), [], map[], 0)
  }

  /** `std::make_shared`: places a new subscriber object at an unused
      address. */
  function Adopt(h: Hub, s: Subscriber): (r: (Hub, Handle))
    requires Wf(h)
    ensures Wf(r.0) && r.1 !in h.objects && r.0.objects == h.objects[r.1 := s]
    ensures r.0.registry == h.registry && r.0.source == h.source
  {
    (h.(objects := h.objects[h.next := s], next := h.next + 1), h.next)
  }

  /** `Stop`: requests the stop and changes nothing else; it neither unblocks
      nor removes subscribers. */
  function Stop(h: Hub): (r: Hub)
    ensures r.source.needToStop && r.source.isStarted == h.source.isStarted
    ensures r.registry == h.registry && r.objects == h.objects && r.next == h.next
  {
    h.(source := h.source.(needToStop := true))
  }

  /** `removeTerminatedPacketSource`: drops exactly the terminated entries and
      keeps the others in their relative order. */
  function RemoveTerminated(reg: seq<Handle>, objs: map<Handle, Subscriber>): (r: seq<Handle>)
    requires Known(reg, objs)
    ensures Known(r, objs)
    ensures forall x :: x in r <==> x in reg && x in objs && !IsTerminated(objs[x])
    ensures IsSubsequence(r, reg)
    ensures Distinct(reg) ==> Distinct(r)
    decreases |reg|
  {
    if reg == [] then []
    else
      var rest := RemoveTerminated(reg[1..], objs);
      if IsTerminated(objs[reg[0]]) then
        assert rest != [] ==> rest[0] in rest;
        rest
      else
        assert Distinct(reg) ==> reg[0] !in reg[1..];
        [reg[0]] + rest
  }

  /** A registry of live subscribers survives the sweep unchanged. */
  lemma {:induction false} RemoveTerminatedKeepsLive(reg: seq<Handle>, objs: map<Handle, Subscriber>)
    requires Known(reg, objs)
    requires forall i :: 0 <= i < |reg| ==> !IsTerminated(objs[reg[i]])
    ensures RemoveTerminated(reg, objs) == reg
    decreases |reg|
  {
    if reg != [] {
      RemoveTerminatedKeepsLive(reg[1..], objs);
      assert [reg[0]] + reg[1..] == reg;
    }
  }

  /** `std::list::erase` at position `i`. */
  function EraseAt(reg: seq<Handle>, i: nat): (r: seq<Handle>)
    requires i < |reg|
    ensures |r| == |reg| - 1
    ensures IsSubsequence(r, reg)
    ensures forall x :: x in r ==> x in reg
    ensures forall x :: x in reg && x != reg[i] ==> x in r
    ensures Distinct(reg) ==> Distinct(r) && reg[i] !in r
    decreases i
  {
    if i == 0 then
      assert reg == [reg[0]] + reg[1..];
      assert IsSubsequence(reg[1..], reg) by { SubsequenceOfTail(reg); }
      reg[1..]
    else
      var rest := EraseAt(reg[1..], i - 1);
      assert reg == [reg[0]] + reg[1..];
      assert Distinct(reg) ==> reg[0] !in reg[1..] && reg[0] !in rest;
      [reg[0]] + rest
  }

  lemma SubsequenceOfTail<T>(s: seq<T>)
    requires s != []
    ensures IsSubsequence(s[1..], s)
  {
    SubsequenceReflexive(s[1..]);
    SubsequenceDropHead(s[1..], s);
  }

  lemma {:induction false} SubsequenceReflexive<T>(s: seq<T>)
    ensures IsSubsequence(s, s)
    decreases |s|
  {
    if s != [] {
      SubsequenceReflexive(s[1..]);
    }
  }

  /** A subsequence of the tail is a subsequence of the whole. */
  lemma {:induction false} SubsequenceDropHead<T>(a: seq<T>, b: seq<T>)
    requires b != [] && IsSubsequence(a, b[1..])
    ensures IsSubsequence(a, b)
    decreases |b|, 1
  {
    if a != [] && a[0] == b[0] {
      // Matching the head of `a` later in `b` may as well match it here.
      SubsequenceTailOf(a, b[1..]);
    }
  }

  /** Dropping the head of `a` keeps it a subsequence. */
  lemma {:induction false} SubsequenceTailOf<T>(a: seq<T>, b: seq<T>)
    requires a != [] && IsSubsequence(a, b)
    ensures IsSubsequence(a[1..], b)
    decreases |b|, 2
  {
    if b != [] {
      if a[0] == b[0] {
        SubsequenceDropHead(a[1..], b);
      } else {
        SubsequenceTailOf(a, b[1..]);
        SubsequenceDropHead(a[1..], b);
      }
    }
  }

  lemma {:induction false} SubsequenceTransitive<T>(a: seq<T>, b: seq<T>, c: seq<T>)
    requires IsSubsequence(a, b) && IsSubsequence(b, c)
    ensures IsSubsequence(a, c)
    decreases |c|
  {
    if a != [] && c != [] {
      if b[0] == c[0] {
        if a[0] == b[0] {
          SubsequenceTransitive(a[1..], b[1..], c[1..]);
        } else {
          SubsequenceTransitive(a, b[1..], c[1..]);
        }
      } else {
        SubsequenceTransitive(a, b, c[1..]);
        SubsequenceDropHead(a, c);
      }
    }
  }

  lemma AtLeastTwo(s: seq<Handle>, x: Handle, y: Handle)
    requires x in s && y in s && x != y
    ensures |s| >= 2
  {
    if |s| < 2 {
      assert false;
    }
  }

  /** Registered objects answer `ObjectId()` differently. */
  lemma IdentsDistinct(h: Hub, draws: map<Handle, string>, x: Handle, y: Handle)
    requires Wf(h) && Draws(h.objects, draws)
    requires x in h.registry && y in h.registry && x != y
    ensures x in h.objects && y in h.objects
    ensures Ident(h.objects, draws, x) != Ident(h.objects, draws, y)
  {
    AtLeastTwo(h.registry, x, y);
  }

  /** Keeping some of the registry keeps the hub well formed, whatever else
      happens to the objects as long as a stored identity stays stored. */
  lemma WfOfSmallerRegistry(h: Hub, reg: seq<Handle>, objs: map<Handle, Subscriber>)
    requires Wf(h) && objs.Keys == h.objects.Keys
    requires forall x :: x in h.objects && HasIdentity(h.objects[x]) ==> objs[x].objectId == h.objects[x].objectId
    requires Distinct(reg) && forall x :: x in reg ==> x in h.registry
    ensures Wf(h.(registry := reg, objects := objs))
  {
    var r := h.(registry := reg, objects := objs);
    forall i | 0 <= i < |reg| ensures reg[i] in objs {
      assert reg[i] in reg;
    }
    if |reg| >= 2 {
      assert reg[0] in reg && reg[1] in reg;
      AtLeastTwo(h.registry, reg[0], reg[1]);
    }
    forall x, y | x in reg && y in reg && x in objs && y in objs && x != y
      ensures objs[x].objectId != objs[y].objectId
    {
      AtLeastTwo(h.registry, x, y);
    }
  }

  /** Appending `k`, whose identity no entry of `live` shares, keeps the hub
      well formed once the identities compared have been stored. */
  lemma WfAfterPush(h: Hub, live: seq<Handle>, k: Handle, objs: map<Handle, Subscriber>,
                    draws: map<Handle, string>)
    requires Wf(h) && Draws(h.objects, draws) && IdentitiesStored(h.objects, objs, draws)
    requires Distinct(live) && (forall x :: x in live ==> x in h.registry) && k in h.objects
    requires forall x :: x in live && x in h.objects ==> Ident(h.objects, draws, x) != Ident(h.objects, draws, k)
    requires forall x :: x in live && x in objs ==> HasIdentity(objs[x])
    requires live != [] ==> HasIdentity(objs[k])
    ensures Wf(h.(registry := live + [k], objects := objs))
  {
    var reg := live + [k];
    assert k !in live;
    WfOfSmallerRegistry(h, live, objs);
    assert Distinct(reg);
    forall x, y | x in reg && y in reg && x in objs && y in objs && x != y
      ensures objs[x].objectId != objs[y].objectId
    {
      if x != k && y != k {
        assert x in live && y in live;
      } else if x == k {
        assert y in live;
        assert objs[y].objectId == Ident(objs, draws, y);
      } else {
        assert x in live;
        assert objs[x].objectId == Ident(objs, draws, x);
      }
    }
  }

  /** `Subscribe`: ignored while stopping or for a null subscriber. Otherwise
      the terminated entries are swept, the swept registry is searched for
      the subscriber's identity, and the subscriber is appended only when no
      entry has it; existing entries keep their order. */
  function Subscribe(h: Hub, sub: Option<Handle>, draws: map<Handle, string>): (r: Hub)
    requires Wf(h) && Draws(h.objects, draws)
    requires sub.Some? ==> sub.value in h.objects
    ensures Wf(r) && r.source == h.source && r.next == h.next
    ensures IdentitiesStored(h.objects, r.objects, draws)
    ensures h.source.needToStop || sub.None? ==> r == h
    ensures !h.source.needToStop && sub.Some? ==>
              var k := sub.value;
              var live := RemoveTerminated(h.registry, h.objects);
              && (r.registry == live || r.registry == live + [k])
              && (r.registry == live + [k] <==>
                    forall x :: x in live ==> Ident(h.objects, draws, x) != Ident(h.objects, draws, k))
              && (k in live ==> r.registry == live)
              && (live != [] ==> HasIdentity(r.objects[k]))
  {
    if h.source.needToStop || sub.None? then h
    else
      var k := sub.value;
      var live := RemoveTerminated(h.registry, h.objects);
      var (i, objs) := FindByIdentity(h.objects, draws, k, live);
      if i < |live| then
        assert live[i] in live;
        WfOfSmallerRegistry(h, live, objs);
        h.(registry := live, objects := objs)
      else
        assert forall x :: x in live && x in objs ==> HasIdentity(objs[x]);
        WfAfterPush(h, live, k, objs, draws);
        h.(registry := live + [k], objects := objs)
  }

  /** Every entry `Subscribe` leaves is live when the subscriber is. */
  lemma SubscribedRegistryIsLive(h: Hub, k: Handle, draws: map<Handle, string>)
    requires Wf(h) && Draws(h.objects, draws)
    requires !h.source.needToStop && k in h.objects && !IsTerminated(h.objects[k])
    ensures var h1 := Subscribe(h, Some(k), draws);
            forall i :: 0 <= i < |h1.registry| ==> !IsTerminated(h1.objects[h1.registry[i]])
  {
    var h1 := Subscribe(h, Some(k), draws);
    var live := RemoveTerminated(h.registry, h.objects);
    forall i | 0 <= i < |h1.registry|
      ensures !IsTerminated(h1.objects[h1.registry[i]])
    {
      var x := h1.registry[i];
      assert x in h1.registry;
      if x != k {
        assert x in live;
      }
    }
  }

  /** When `Subscribe` found another entry with the subscriber's identity,
      both identities are stored, so a later call finds the same entry
      whatever suffixes it would draw. */
  lemma SharedIdentityStored(h: Hub, k: Handle, first: map<Handle, string>, later: map<Handle, string>)
    requires Wf(h) && Draws(h.objects, first) && Draws(h.objects, later)
    requires !h.source.needToStop && k in h.objects
    requires k !in Subscribe(h, Some(k), first).registry
    ensures var h1 := Subscribe(h, Some(k), first);
            && Draws(h1.objects, later)
            && !forall x :: x in h1.registry ==> Ident(h1.objects, later, x) != Ident(h1.objects, later, k)
  {
    var h1 := Subscribe(h, Some(k), first);
    var live := RemoveTerminated(h.registry, h.objects);
    assert h1.registry == live;
    var (i, objs) := FindByIdentity(h.objects, first, k, live);
    assert i < |live| && live[i] in live;
    assert HasIdentity(h1.objects[k]) && HasIdentity(h1.objects[live[i]]);
    assert Ident(h1.objects, later, live[i]) == Ident(h1.objects, later, k);
  }

  /** Subscribing a live subscriber a second time leaves the registry as the
      first call left it: one entry per identity. */
  lemma SubscribeIdempotent(h: Hub, k: Handle, first: map<Handle, string>, later: map<Handle, string>)
    requires Wf(h) && Draws(h.objects, first) && Draws(h.objects, later)
    requires !h.source.needToStop && k in h.objects && !IsTerminated(h.objects[k])
    ensures var h1 := Subscribe(h, Some(k), first);
            && Draws(h1.objects, later)
            && Subscribe(h1, Some(k), later).registry == h1.registry
  {
    var h1 := Subscribe(h, Some(k), first);
    SubscribedRegistryIsLive(h, k, first);
    RemoveTerminatedKeepsLive(h1.registry, h1.objects);
    if k !in h1.registry {
      SharedIdentityStored(h, k, first, later);
    }
  }

  /** What `Unsubscribe`'s `erase` at the first match leaves: exactly the
      entries whose identity differs from the subscriber's, since registered
      identities are distinct. */
  lemma ErasedByIdentity(h: Hub, draws: map<Handle, string>, k: Handle, i: nat)
    requires Wf(h) && Draws(h.objects, draws) && k in h.objects && i <= |h.registry|
    requires i < |h.registry| ==> Ident(h.objects, draws, h.registry[i]) == Ident(h.objects, draws, k)
    requires forall j :: 0 <= j < i ==> Ident(h.objects, draws, h.registry[j]) != Ident(h.objects, draws, k)
    ensures var erased := if i < |h.registry| then EraseAt(h.registry, i) else h.registry;
            && Distinct(erased) && IsSubsequence(erased, h.registry)
            && forall x :: x in erased <==>
                 x in h.registry && x in h.objects && Ident(h.objects, draws, x) != Ident(h.objects, draws, k)
  {
    SubsequenceReflexive(h.registry);
    forall x | x in h.registry
      ensures x in h.objects
      ensures i < |h.registry| && x != h.registry[i] ==> Ident(h.objects, draws, x) != Ident(h.objects, draws, k)
    {
      if i < |h.registry| && x != h.registry[i] {
        assert h.registry[i] in h.registry;
        IdentsDistinct(h, draws, x, h.registry[i]);
      }
    }
  }

  /** `Unsubscribe`: ignored while stopping or for a null subscriber.
      Otherwise the first entry with the subscriber's identity is erased,
      then the terminated entries are swept; the rest keep their order. */
  function Unsubscribe(h: Hub, sub: Option<Handle>, draws: map<Handle, string>): (r: Hub)
    requires Wf(h) && Draws(h.objects, draws)
    requires sub.Some? ==> sub.value in h.objects
    ensures Wf(r) && r.source == h.source && r.next == h.next
    ensures IdentitiesStored(h.objects, r.objects, draws)
    ensures h.source.needToStop || sub.None? ==> r == h
    ensures !h.source.needToStop && sub.Some? ==>
              && sub.value !in r.registry
              && IsSubsequence(r.registry, h.registry)
              && forall x :: x in r.registry <==>
                   && x in h.registry && x in h.objects && !IsTerminated(h.objects[x])
                   && Ident(h.objects, draws, x) != Ident(h.objects, draws, sub.value)
  {
    if h.source.needToStop || sub.None? then h
    else
      var k := sub.value;
      var (i, objs) := FindByIdentity(h.objects, draws, k, h.registry);
      ErasedByIdentity(h, draws, k, i);
      var erased := if i < |h.registry| then EraseAt(h.registry, i) else h.registry;
      assert Known(erased, objs) by {
        forall j | 0 <= j < |erased| ensures erased[j] in objs {
          assert erased[j] in erased;
        }
      }
      var swept := RemoveTerminated(erased, objs);
      SubsequenceTransitive(swept, erased, h.registry);
      WfOfSmallerRegistry(h, swept, objs);
      h.(registry := swept, objects := objs)
  }

  /** The application's `main` flow on a fresh source: the subscriber it
      subscribes is registered, unsubscribing it with the same pointer
      empties the registry, and subscribing it again keeps a single entry. */
  lemma SubscribeThenUnsubscribe(s: Subscriber, first: map<Handle, string>, later: map<Handle, string>)
    requires !IsTerminated(s)
    requires 0 in first && IsRandomSuffix(first[0]) && 0 in later && IsRandomSuffix(later[0])
    ensures var (h0, k) := Adopt(NewHub(), s);
            var h1 := Subscribe(h0, Some(k), first);
            && h1.registry == [k]
            && Draws(h1.objects, later)
            && Unsubscribe(h1, Some(k), later).registry == []
            && Subscribe(h1, Some(k), later).registry == [k]
  {
    var (h0, k) := Adopt(NewHub(), s);
    assert RemoveTerminated(h0.registry, h0.objects) == [];
    SubscribeToEmpty(h0, k, first);
    var h1 := Subscribe(h0, Some(k), first);
    UnsubscribeSole(h1, k, later);
    SubscribeIdempotent(h0, k, first, later);
  }

  /** A subscriber pushed onto a registry with no live entry is compared
      with nobody: it becomes the only entry and no identity is computed. */
  lemma SubscribeToEmpty(h: Hub, k: Handle, draws: map<Handle, string>)
    requires Wf(h) && Draws(h.objects, draws) && !h.source.needToStop && k in h.objects
    requires RemoveTerminated(h.registry, h.objects) == []
    ensures Subscribe(h, Some(k), draws) == h.(registry := [k])
  {
  }

  /** Unsubscribing the only registered subscriber empties the registry. */
  lemma UnsubscribeSole(h: Hub, k: Handle, draws: map<Handle, string>)
    requires Wf(h) && Draws(h.objects, draws) && !h.source.needToStop && k in h.objects
    requires h.registry == [k]
    ensures Unsubscribe(h, Some(k), draws).registry == []
  {
  }

  /** Hands `pkt` to every live subscriber listed in `ids`, in order, with
      `NewPacket`; waits at the first one whose queue is full. */
  function FanOut(ids: seq<Handle>, objs: map<Handle, Subscriber>, pkt: Option<Media.Packet>)
    : (r: Step<map<Handle, Subscriber>>)
    requires Known(ids, objs) && Distinct(ids)
    ensures r.Done? <==> forall i :: 0 <= i < |ids| ==> Accepts(objs[ids[i]], pkt)
    ensures r.Done? ==> r.state.Keys == objs.Keys
    ensures r.Done? ==> forall x :: x in objs ==>
              r.state[x] == if x in ids then Delivered(objs[x], pkt) else objs[x]
    decreases |ids|
  {
    if ids == [] then Done(objs)
    else
      var x := ids[0];
      assert x !in ids[1..];
      match NewPacket(objs[x], pkt)
      case Blocked => Blocked
      case Done(s) =>
        var objs' := objs[x := s];
        assert forall i :: 0 <= i < |ids[1..]| ==> objs'[ids[1..][i]] == objs[ids[1..][i]];
        FanOut(ids[1..], objs', pkt)
  }

  /** `publishToAll`: ignored while stopping or before the read loop started.
      Otherwise the terminated entries are swept; a single remaining
      subscriber gets the packet itself, two or more get one `Clone` each in
      registry order, and with none the packet is dropped. */
  function PublishToAll(h: Hub, pkt: Media.Packet): (r: Step<Hub>)
    requires Wf(h)
    ensures r.Done? ==> Wf(r.state) && r.state.source == h.source && r.state.next == h.next
    ensures h.source.needToStop || !h.source.isStarted ==> r == Done(h)
    ensures !h.source.needToStop && h.source.isStarted ==>
              var live := RemoveTerminated(h.registry, h.objects);
              && (|live| == 0 ==> r == Done(h.(registry := [])))
              && (|live| == 1 ==>
                    && (r.Done? <==> Accepts(h.objects[live[0]], Some(pkt)))
                    && (r.Done? ==> r.state == h.(registry := live,
                          objects := h.objects[live[0] := Enqueued(h.objects[live[0]], Some(pkt))])))
              && (|live| >= 2 ==>
                    && (r.Done? <==> forall i :: 0 <= i < |live| ==> Accepts(h.objects[live[i]], Some(pkt)))
                    && (r.Done? ==> r.state.registry == live && r.state.objects.Keys == h.objects.Keys)
                    && (r.Done? ==> forall x :: x in h.objects ==>
                          r.state.objects[x] ==
                            if x in live then Enqueued(h.objects[x], Some(Media.Clone(pkt)))
                            else h.objects[x]))
  {
    if h.source.needToStop || !h.source.isStarted then Done(h)
    else
      var live := RemoveTerminated(h.registry, h.objects);
      if |live| == 1 then
        var x := live[0];
        assert x in live;
        var s := h.objects[x];
        if !IsTerminated(s) then
          match NewPacket(s, Some(pkt))
          case Blocked => Blocked
          case Done(s') =>
            WfOfSmallerRegistry(h, live, h.objects[x := s']);
            Done(h.(registry := live, objects := h.objects[x := s']))
        else Done(h.(registry := []))
      else
        match FanOut(live, h.objects, Some(Media.Clone(pkt)))
        case Blocked => Blocked
        case Done(objs) =>
          WfOfSmallerRegistry(h, live, objs);
          Done(h.(registry := live, objects := objs))
  }

  /** The application terminating the subscriber it shares with the
      registry. */
  function TerminateSubscriber(h: Hub, k: Handle): (r: Hub)
    requires Wf(h) && k in h.objects
    ensures Wf(r) && r.source == h.source && r.registry == h.registry && r.next == h.next
    ensures r.objects.Keys == h.objects.Keys && IsTerminated(r.objects[k])
    ensures forall x :: x in h.objects && x != k ==> r.objects[x] == h.objects[x]
  {
    var objs := h.objects[k := Terminate(h.objects[k])];
    SubsequenceReflexive(h.registry);
    WfOfSmallerRegistry(h, h.registry, objs);
    h.(objects := objs)
  }

  /** The application calling `ReadPacket()` on the subscriber at `k`: the
      oldest packet the hub handed it, or null when its queue is empty. */
  function ReadPacket(h: Hub, k: Handle): (r: (Option<Media.Packet>, Hub))
    requires Wf(h) && k in h.objects
    ensures Wf(r.1) && r.1.source == h.source && r.1.registry == h.registry && r.1.next == h.next
    ensures r.1.objects.Keys == h.objects.Keys
    ensures h.objects[k].queue.items == [] ==> r.0 == None && r.1 == h
    ensures h.objects[k].queue.items != [] ==>
              && r.0 == h.objects[k].queue.items[0]
              && r.1.objects[k] == h.objects[k].(queue := h.objects[k].queue.(items := h.objects[k].queue.items[1..]))
    ensures forall x :: x in h.objects && x != k ==> r.1.objects[x] == h.objects[x]
  {
    var (p, s) := Subscribers.ReadPacket(h.objects[k]);
    var objs := h.objects[k := s];
    if h.objects[k].queue.items == [] then
      assert objs == h.objects;
      (p, h)
    else
      WfOfSmallerRegistry(h, h.registry, objs);
      (p, h.(objects := objs))
  }

  /** `emptyPacketQueue()` on the subscriber at `k`: its queue loses every
      packet and nothing else in the hub changes. */
  function EmptyPacketQueue(h: Hub, k: Handle): (r: Hub)
    requires Wf(h) && k in h.objects
    ensures Wf(r) && r.source == h.source && r.registry == h.registry && r.next == h.next
    ensures r.objects.Keys == h.objects.Keys
    ensures r.objects[k].queue.items == [] && r.objects[k].(queue := h.objects[k].queue) == h.objects[k]
    ensures forall x :: x in h.objects && x != k ==> r.objects[x] == h.objects[x]
  {
    var objs := h.objects[k := Subscribers.EmptyPacketQueue(h.objects[k])];
    WfOfSmallerRegistry(h, h.registry, objs);
    h.(objects := objs)
  }

  /** Once `Stop` has been requested, publishing, subscribing and
      unsubscribing all leave the hub unchanged. */
  lemma StopSilences(h: Hub, pkt: Media.Packet, sub: Option<Handle>, draws: map<Handle, string>)
    requires Wf(h) && Draws(h.objects, draws) && (sub.Some? ==> sub.value in h.objects)
    ensures Wf(Stop(h))
    ensures PublishToAll(Stop(h), pkt) == Done(Stop(h))
    ensures Subscribe(Stop(h), sub, draws) == Stop(h)
    ensures Unsubscribe(Stop(h), sub, draws) == Stop(h)
  {
  }

  /** An unsubscribed subscriber receives nothing from the next publish. */
  lemma UnsubscribedReceivesNothing(h: Hub, k: Handle, draws: map<Handle, string>, pkt: Media.Packet)
    requires Wf(h) && Draws(h.objects, draws) && k in h.objects && !h.source.needToStop
    ensures var h1 := Unsubscribe(h, Some(k), draws);
            var r := PublishToAll(h1, pkt);
            r.Done? ==> r.state.objects[k] == h1.objects[k]
  {
    var h1 := Unsubscribe(h, Some(k), draws);
    UnlistedUntouched(h1, k, pkt);
  }

  /** A publish hands nothing to a subscriber the sweep does not keep. */
  lemma UnlistedUntouched(h: Hub, k: Handle, pkt: Media.Packet)
    requires Wf(h) && k in h.objects && k !in RemoveTerminated(h.registry, h.objects)
    ensures var r := PublishToAll(h, pkt);
            r.Done? ==> r.state.objects[k] == h.objects[k]
  {
    var live := RemoveTerminated(h.registry, h.objects);
    if |live| == 1 {
      assert live[0] in live;
    }
  }

  /** A terminated subscriber receives nothing from the next publish, which
      also sweeps it out of the registry. */
  lemma TerminatedIsSwept(h: Hub, k: Handle, pkt: Media.Packet)
    requires Wf(h) && k in h.objects && h.source.isStarted && !h.source.needToStop
    ensures var h1 := TerminateSubscriber(h, k);
            var r := PublishToAll(h1, pkt);
            r.Done? ==> k !in r.state.registry && r.state.objects[k] == h1.objects[k]
  {
    var h1 := TerminateSubscriber(h, k);
    var live := RemoveTerminated(h1.registry, h1.objects);
    assert k !in live;
    if |live| == 1 {
      assert live[0] in live;
    }
  }

  /** Every registry entry is live. */
  predicate AllLive(h: Hub) {
    forall i :: 0 <= i < |h.registry| ==>
      h.registry[i] in h.objects && !IsTerminated(h.objects[h.registry[i]])
  }

  /** Every registered subscriber's queue has room for `n` more packets. */
  predicate HasRoomFor(h: Hub, n: nat) {
    forall i :: 0 <= i < |h.registry| ==>
      h.registry[i] in h.objects &&
      |h.objects[h.registry[i]].queue.items| + n <= h.objects[h.registry[i]].queue.capacity
  }

  /** The copy of `p` a subscriber receives when `k` subscribers are
      registered: the packet itself for a single one, a clone otherwise. */
  function Handed(k: nat, p: Media.Packet): Option<Media.Packet> {
    if k == 1 then Some(p) else Some(Media.Clone(p))
  }

  function HandedAll(k: nat, pkts: seq<Media.Packet>): (r: seq<Option<Media.Packet>>)
    ensures |r| == |pkts|
  {
    if pkts == [] then [] else [Handed(k, pkts[0])] + HandedAll(k, pkts[1..])
  }

  /** The read loop publishing `pkts` in order; waits at the first publish
      that finds a queue full. */
  function PublishAll(h: Hub, pkts: seq<Media.Packet>): (r: Step<Hub>)
    requires Wf(h)
    ensures r.Done? ==> Wf(r.state)
    decreases |pkts|
  {
    if pkts == [] then Done(h)
    else match PublishToAll(h, pkts[0])
      case Blocked => Blocked
      case Done(h') => PublishAll(h', pkts[1..])
  }

  /** `after` is `before` with `extra` appended to the queue of every
      subscriber listed in `reg`, and every other queue as it was. */
  predicate QueuesExtended(before: map<Handle, Subscriber>, after: map<Handle, Subscriber>,
                           reg: seq<Handle>, extra: seq<Option<Media.Packet>>) {
    && after.Keys == before.Keys
    && forall x :: x in before ==>
         after[x].queue.items ==
           if x in reg then before[x].queue.items + extra else before[x].queue.items
  }

  lemma QueuesExtendedTrans(a: map<Handle, Subscriber>, b: map<Handle, Subscriber>, c: map<Handle, Subscriber>,
                            reg: seq<Handle>, x: seq<Option<Media.Packet>>, y: seq<Option<Media.Packet>>)
    requires QueuesExtended(a, b, reg, x) && QueuesExtended(b, c, reg, y)
    ensures QueuesExtended(a, c, reg, x + y)
  {
    forall k | k in a && k in reg
      ensures c[k].queue.items == a[k].queue.items + (x + y)
    {
      assert a[k].queue.items + x + y == a[k].queue.items + (x + y);
    }
  }

  /** One publish to a registry of live subscribers with room: nobody is
      swept, every registered subscriber gains its copy at the tail, and each
      has one slot less. */
  lemma PublishToLive(h: Hub, p: Media.Packet, n: nat)
    requires Wf(h) && AllLive(h) && HasRoomFor(h, n + 1)
    requires h.source.isStarted && !h.source.needToStop && |h.registry| >= 1
    ensures PublishToAll(h, p).Done?
    ensures var h' := PublishToAll(h, p).state;
            && h'.source == h.source && h'.registry == h.registry
            && h'.objects.Keys == h.objects.Keys
            && AllLive(h') && HasRoomFor(h', n)
            && QueuesExtended(h.objects, h'.objects, h.registry, [Handed(|h.registry|, p)])
            && forall x :: x in h.objects ==>
                 h'.objects[x] ==
                   if x in h.registry then Enqueued(h.objects[x], Handed(|h.registry|, p))
                   else h.objects[x]
  {
    RemoveTerminatedKeepsLive(h.registry, h.objects);
    var h' := PublishToAll(h, p).state;
    forall i | 0 <= i < |h'.registry|
      ensures h'.registry[i] in h'.objects && !IsTerminated(h'.objects[h'.registry[i]])
      ensures |h'.objects[h'.registry[i]].queue.items| + n <= h'.objects[h'.registry[i]].queue.capacity
    {
      assert h.registry[i] in h.registry;
    }
  }

  /** Per-subscriber FIFO across publishes: while every registered
      subscriber is live and has room, publishing a sequence of packets
      appends to each queue its own copy of every packet, in publish order,
      and leaves the registry as it was. */
  lemma {:induction false} PublishAllFanOut(h: Hub, pkts: seq<Media.Packet>)
    requires Wf(h) && AllLive(h) && HasRoomFor(h, |pkts|)
    requires h.source.isStarted && !h.source.needToStop && |h.registry| >= 1
    ensures PublishAll(h, pkts).Done?
    ensures var h' := PublishAll(h, pkts).state;
            && h'.source == h.source && h'.registry == h.registry
            && QueuesExtended(h.objects, h'.objects, h.registry, HandedAll(|h.registry|, pkts))
    decreases |pkts|
  {
    if pkts != [] {
      var k := |h.registry|;
      PublishToLive(h, pkts[0], |pkts| - 1);
      var h1 := PublishToAll(h, pkts[0]).state;
      assert PublishAll(h, pkts) == PublishAll(h1, pkts[1..]);
      PublishAllFanOut(h1, pkts[1..]);
      var h' := PublishAll(h1, pkts[1..]).state;
      QueuesExtendedTrans(h.objects, h1.objects, h'.objects, h.registry,
                          [Handed(k, pkts[0])], HandedAll(k, pkts[1..]));
    } else {
      assert QueuesExtended(h.objects, h.objects, h.registry, []) by {
        forall x | x in h.objects
          ensures h.objects[x].queue.items + [] == h.objects[x].queue.items
        {
        }
      }
    }
  }

  /** End to end for a single subscriber: the packet published to it is the
      packet its `ReadPacket()` returns. */
  lemma PublishThenRead(h: Hub, k: Handle, p: Media.Packet)
    requires Wf(h) && h.registry == [k] && k in h.objects && !IsTerminated(h.objects[k])
    requires h.objects[k].queue.items == [] && h.objects[k].queue.capacity >= 1
    requires h.source.isStarted && !h.source.needToStop
    ensures PublishToAll(h, p).Done?
    ensures ReadPacket(PublishToAll(h, p).state, k).0 == Some(p)
  {
    RemoveTerminatedKeepsLive(h.registry, h.objects);
  }
}

=== FILE: subscriber.dfy ===
/** `PacketSourceSubscriber`: a consumer of packets with a bounded queue, a
    lazily generated identity and a termination flag. The queue holds
    `Packet::Ptr` values, so its elements are `Option<Packet>` and popping an
    empty queue yields `None`, the default-constructed pointer. */
module Subscribers {
  import opened Common
  import CircularBuffers
  import Media

  /** A subscriber's identity, `ObjectId()`. */
  type Id = string

  /** `name` is what the subclass's `ObjectName()` returns; `objectId` is
      `m_objectId` (empty until first computed); `initialized` is
      `m_isInitialized`; `queue` is `m_packetQueue`. */
  datatype Subscriber = Subscriber(
    name: string,
    objectId: string,
    initialized: bool,
    queue: CircularBuffers.Buffer<Option<Media.Packet>>)

  /** The characters `randomString` draws from. */
  predicate IsAlphanumeric(c: char) {
    '0' <= c <= '9' || 'a' <= c <= 'z' || 'A' <= c <= 'Z'
  }

  /** What `randomString()` returns: 10 characters drawn from digits and
      ASCII letters. The generator itself is left out; its result is a
      parameter. */
  predicate IsRandomSuffix(s: string) {
    |s| == 10 && forall i :: 0 <= i < |s| ==> IsAlphanumeric(s[i])
  }

  /** The queue holds no null pointer: `NewPacket` never enqueues one. */
  predicate HoldsOnlyPackets(s: Subscriber) {
    forall i :: 0 <= i < |s.queue.items| ==> s.queue.items[i].Some?
  }

  /** `PacketSourceSubscriber(int queueSize)`: initialized, with an empty
      queue whose capacity is `queueSize` converted to `uint32_t` (0 becomes
      1). */
  function New(name: string, queueSize: int): (s: Subscriber)
    requires -INT32_LIMIT <= queueSize < INT32_LIMIT
    ensures !IsTerminated(s) && s.objectId == "" && s.name == name
    ensures CircularBuffers.Valid(s.queue) && s.queue.items == [] && HoldsOnlyPackets(s)
    ensures 0 < queueSize ==> s.queue.capacity == queueSize
    ensures queueSize == 0 ==> s.queue.capacity == 1
    ensures queueSize < 0 ==> s.queue.capacity == queueSize + UINT32_LIMIT
  {
    Subscriber(name, "", true, CircularBuffers.New(queueSize % UINT32_LIMIT))
  }

  /** `IsTerminated`: the negation of `m_isInitialized`; there is no separate
      terminated state. */
  predicate IsTerminated(s: Subscriber) {
    !s.initialized
  }

  /** `Terminate`: marks the subscriber terminated; the queue, the name and
      the identity are untouched. */
  function Terminate(s: Subscriber): (r: Subscriber)
    ensures IsTerminated(r)
    ensures r.queue == s.queue && r.objectId == s.objectId && r.name == s.name
  {
    s.(initialized := false)
  }

  /** `IsTerminated` is the flag the subscriber obeys: a new subscriber is
      live whatever its name and queue size, `Terminate` makes it
      terminated, and a subscriber with room in its queue ignores a packet
      exactly when it is terminated. */
  lemma TerminationIsObeyed(s: Subscriber, pkt: Media.Packet, name: string, queueSize: int)
    requires |s.queue.items| < s.queue.capacity
    requires -INT32_LIMIT <= queueSize < INT32_LIMIT
    ensures !IsTerminated(New(name, queueSize)) && IsTerminated(Terminate(s))
    ensures IsTerminated(s) <==> NewPacket(s, Some(pkt)) == Done(s)
  {
    if !IsTerminated(s) {
      assert |NewPacket(s, Some(pkt)).state.queue.items| == |s.queue.items| + 1;
    }
  }

  /** Terminating twice is the same as terminating once. */
  lemma TerminateIdempotent(s: Subscriber)
    ensures Terminate(Terminate(s)) == Terminate(s)
  {
  }

  /** Whether `ObjectId()` returns the stored `m_objectId` without drawing
      a new suffix. */
  predicate HasIdentity(s: Subscriber) {
    |s.objectId| >= 10
  }

  /** `ObjectId()`: an identity of at least 10 characters is returned as
      stored; otherwise the identity becomes `ObjectName()` followed by a
      fresh random suffix, is stored, and is returned. */
  function ObjectId(s: Subscriber, suffix: string): (r: (Id, Subscriber))
    requires IsRandomSuffix(suffix)
    ensures HasIdentity(s) ==> r == (s.objectId, s)
    ensures !HasIdentity(s) ==> r.0 == s.name + suffix && r.1 == s.(objectId := s.name + suffix)
    ensures HasIdentity(r.1) && r.1.objectId == r.0
  {
    if |s.objectId| < 10 then
      var id := s.name + suffix;
      (id, s.(objectId := id))
    else (s.objectId, s)
  }

  /** Once computed, the identity is stable: later calls return it whatever
      the generator would produce and change nothing. */
  lemma ObjectIdStable(s: Subscriber, first: string, later: string)
    requires IsRandomSuffix(first) && IsRandomSuffix(later)
    ensures var (id, s') := ObjectId(s, first);
            ObjectId(s', later) == (id, s')
  {
  }

  /** The subscriber with `pkt` appended at its queue's tail. */
  function Enqueued(s: Subscriber, pkt: Option<Media.Packet>): Subscriber {
    s.(queue := s.queue.(items := s.queue.items + [pkt]))
  }

  /** Whether `NewPacket(pkt)` returns without waiting: the call is a no-op,
      or the queue has a free slot. */
  predicate Accepts(s: Subscriber, pkt: Option<Media.Packet>) {
    pkt.None? || IsTerminated(s) || |s.queue.items| < s.queue.capacity
  }

  /** The subscriber after `NewPacket(pkt)` returned. */
  function Delivered(s: Subscriber, pkt: Option<Media.Packet>): Subscriber {
    if pkt.None? || IsTerminated(s) then s else Enqueued(s, pkt)
  }

  /** `NewPacket`: does nothing for a null packet or a terminated
      subscriber; otherwise pushes the packet at the queue's tail, waiting
      while the queue is full. */
  function NewPacket(s: Subscriber, pkt: Option<Media.Packet>): (r: Step<Subscriber>)
    ensures pkt.None? || IsTerminated(s) ==> r == Done(s)
    ensures pkt.Some? && !IsTerminated(s) ==>
              && (r.Blocked? <==> |s.queue.items| >= s.queue.capacity)
              && (r.Done? ==> r.state == s.(queue := s.queue.(items := s.queue.items + [pkt])))
    ensures r.Done? <==> Accepts(s, pkt)
    ensures r.Done? ==> r.state == Delivered(s, pkt)
    ensures r.Done? ==> r.state.objectId == s.objectId && r.state.initialized == s.initialized
    ensures r.Done? && HoldsOnlyPackets(s) ==> HoldsOnlyPackets(r.state)
    ensures r.Done? && CircularBuffers.Valid(s.queue) ==> CircularBuffers.Valid(r.state.queue)
  {
    if pkt.None? || !s.initialized then Done(s)
    else match CircularBuffers.Push(s.queue, pkt)
      case Blocked => Blocked
      case Done(q) => Done(s.(queue := q))
  }

  /** `ReadPacket`: pops the oldest queued packet, or returns null when the
      queue is empty. */
  function ReadPacket(s: Subscriber): (r: (Option<Media.Packet>, Subscriber))
    ensures |s.queue.items| == 0 ==> r == (None, s)
    ensures |s.queue.items| > 0 ==>
              && r.0 == s.queue.items[0]
              && r.1 == s.(queue := s.queue.(items := s.queue.items[1..]))
    ensures HoldsOnlyPackets(s) ==> (r.0.Some? <==> |s.queue.items| > 0) && HoldsOnlyPackets(r.1)
  {
    var popped := CircularBuffers.PopBack(s.queue, None);
    (popped.value, s.(queue := popped.buffer))
  }

  /** `emptyPacketQueue`: discards every queued packet. */
  function EmptyPacketQueue(s: Subscriber): (r: Subscriber)
    ensures r.queue.items == [] && r.queue.capacity == s.queue.capacity
    ensures r.(queue := s.queue) == s
  {
    s.(queue := CircularBuffers.Clear(s.queue))
  }

  /** Per-subscriber FIFO: packets handed to a live subscriber with room come
      back from `ReadPacket` in the order they were handed over. */
  lemma NewPacketThenReadPacket(s: Subscriber, a: Media.Packet, b: Media.Packet)
    requires !IsTerminated(s) && s.queue.items == [] && s.queue.capacity >= 2
    ensures NewPacket(s, Some(a)).Done?
    ensures NewPacket(NewPacket(s, Some(a)).state, Some(b)).Done?
    ensures var s2 := NewPacket(NewPacket(s, Some(a)).state, Some(b)).state;
            && ReadPacket(s2).0 == Some(a)
            && ReadPacket(ReadPacket(s2).1).0 == Some(b)
            && ReadPacket(ReadPacket(ReadPacket(s2).1).1).0 == None
  {
    var s2 := NewPacket(NewPacket(s, Some(a)).state, Some(b)).state;
    assert s2.queue.items == [Some(a), Some(b)];
  }
}
